=== FILE: README.md ===
# Add-on build tasks: release state, next development iteration, API generator selection

A Dafny model of three pieces of decision logic from the ZAP add-on Gradle
plugin and its API generator:

- **Release state of the last commit** (`GenerateReleaseStateLastCommit`).
  For each tracked project it reads the project's properties file at the head
  commit. It then picks the commit to compare with. A merge head uses the
  common ancestor of its first two parents; any other head uses its first
  parent. The previous properties are read from the old object of the first
  `MODIFY` entry for the file in the diff from that commit to the head;
  without such an entry they are the current ones. The
  `version` and `release` values of both sides make the release state.
  The repository is data here (`ReleaseStateLastCommit.Repository`):
  - the commit with its parents;
  - the order in which a commit walk visits commits;
  - the files of each commit;
  - the parsed properties of each stored file;
  - the diff between two commits.
- **Next development iteration** (`PrepareAddOnNextDevIter`). The version is
  bumped: a Java `int` goes to its successor, with `int` wrap-around;
  otherwise a plain `X.Y.Z` goes to `X.(Y+1).0`. Then the build file is
  copied line by line, and the first line `version = "<current>"` becomes
  `version = "<new>"`. The update fails when no line matches.
- **API generator selection** (`ApiGenerator`). The `language` setting maps
  to a generator; `ALL` expands to every concrete generator in declaration
  order. Each generator writes below the base directory. The `basedir` and
  `api` settings are required.

Modules: `Results` (Option/Result), `Text` (digits, numerals, split/join,
ASCII case), `JavaLang` (the `java.lang` behaviours the code relies on),
`SemVer` (plain versions), `NextDevIter`, `ReleaseStateLastCommit`,
`ApiGenerator`.

Three behaviours of the code that the model keeps:

- The common ancestor of a merge is the first commit of the second parent's
  walk that also occurs in the first parent's walk. Both walks are in the
  walk's own order and capped at 50 commits.
- The current version may be absent: `getProperty` returns `null`, and the
  code passes that on. So versions are `Option<string>`.
- A root head commit, which has no parent, is not compared with anything.
  The code calls `getParent(0)` on it, which throws an index exception that
  nothing catches. The model returns the error `NoParent`.

## Model

| member | source | states |
|---|---|---|
| Text.NatToDecimal | src/main/java/org/zaproxy/gradle/addon/misc/PrepareAddOnNextDevIter.java:117 | the decimal numeral of n is canonical (no leading zero) and its value is n |
| Text.NumeralRoundTrip | src/main/java/org/zaproxy/gradle/addon/misc/PrepareAddOnNextDevIter.java:123 | a canonical numeral is recovered from its value: numerals without leading zeros and naturals correspond one to one |
| Text.SplitJoin | src/main/java/org/zaproxy/gradle/addon/misc/PrepareAddOnNextDevIter.java:123 | splitting the join of separator-free parts gives back the parts |
| Text.JoinSplit | src/main/java/org/zaproxy/gradle/addon/misc/PrepareAddOnNextDevIter.java:123 | joining the parts of a split gives back the text |
| JavaLang.ToInt32 | src/main/java/org/zaproxy/gradle/addon/misc/PrepareAddOnNextDevIter.java:117 | the reduction into the int range is congruent to n modulo 2^32 and keeps every value already in range, as Java's two's-complement int arithmetic does |
| JavaLang.Increment | src/main/java/org/zaproxy/gradle/addon/misc/PrepareAddOnNextDevIter.java:117 | `++` on an int is n+1 below Integer.MAX_VALUE and wraps to Integer.MIN_VALUE at it |
| JavaLang.ParseInt | src/main/java/org/zaproxy/gradle/addon/misc/PrepareAddOnNextDevIter.java:116 | a parsed int is in the 32-bit range; digits with an optional "-" or "+" parse to their signed value exactly when it fits, so "2147483648" and "-2147483649" are rejected while "-2147483648" is accepted; empty text, a lone sign, and a sign or text followed by anything but digits are rejected |
| JavaLang.IntToString | src/main/java/org/zaproxy/gradle/addon/misc/PrepareAddOnNextDevIter.java:117 | a non-negative int is written as the canonical numeral of its value; a negative one as "-" followed by the canonical numeral of its magnitude |
| JavaLang.ParseIntToString | src/main/java/org/zaproxy/gradle/addon/misc/PrepareAddOnNextDevIter.java:116-117 | every int parses back from its decimal text |
| JavaLang.ParseBoolean | src/main/java/org/zaproxy/gradle/addon/internal/tasks/GenerateReleaseStateLastCommit.java:96-101 | true exactly for a present value that spells "true" in any mix of cases; a missing value is false |
| JavaLang.GetProperty | src/main/java/org/zaproxy/gradle/addon/internal/tasks/GenerateReleaseStateLastCommit.java:93-101 | a key gives its stored value, and a missing key gives no value, the null of `Properties.getProperty` |
| JavaLang.UpperChar | apigen/src/main/java/org/zaproxy/zap/extension/api/ApiGenerator.java:86 | an ASCII character upper-cases letter for letter; a non-ASCII character outside dotless i, long s, sharp s and the Latin ligatures is kept as it is; every character of an upper case is ASCII or the character itself, and one character gives one to three |
| JavaLang.ToUpperRoot | apigen/src/main/java/org/zaproxy/zap/extension/api/ApiGenerator.java:86 | upper-casing never shortens the text (the sharp s and the ligatures lengthen it) |
| JavaLang.ToUpperRootAscii | apigen/src/main/java/org/zaproxy/zap/extension/api/ApiGenerator.java:86 | on ASCII text, upper-casing keeps the length and upper-cases each character on its own |
| JavaLang.ToUpperRootKeepsOtherNonAscii | apigen/src/main/java/org/zaproxy/zap/extension/api/ApiGenerator.java:86 | a non-ASCII character whose upper case is not ASCII still occurs in the upper-cased text |
| JavaLang.ToUpperRootOfCaseVariant | apigen/src/main/java/org/zaproxy/zap/extension/api/ApiGenerator.java:86 | upper-casing any case variant of an upper-case ASCII word gives that word |
| JavaLang.UpperWordOfAsciiIsCaseVariant | apigen/src/main/java/org/zaproxy/zap/extension/api/ApiGenerator.java:86 | ASCII text that upper-cases to an upper-case word is a case variant of it |
| SemVer.Parse | src/main/java/org/zaproxy/gradle/addon/misc/PrepareAddOnNextDevIter.java:123 | a version is read exactly from three dot-separated numerals without leading zeros (section 2 of Semantic Versioning 2.0.0), the first giving major, the second minor and the third patch; its text has only digits and dots |
| SemVer.Format | src/main/java/org/zaproxy/gradle/addon/misc/PrepareAddOnNextDevIter.java:123 | a written version has only digits and dots, and its three dot-separated parts are the numerals of major, minor and patch in that order |
| SemVer.NextMinor | src/main/java/org/zaproxy/gradle/addon/misc/PrepareAddOnNextDevIter.java:123 | the next minor version keeps the major, adds one to the minor and resets the patch to 0 |
| SemVer.FormatParse | src/main/java/org/zaproxy/gradle/addon/misc/PrepareAddOnNextDevIter.java:123 | every version is read back from its text |
| SemVer.ParseFormat | src/main/java/org/zaproxy/gradle/addon/misc/PrepareAddOnNextDevIter.java:123 | a parsed version is written back as exactly the text it came from |
| SemVer.ParseRejectsLeadingZero | src/main/java/org/zaproxy/gradle/addon/misc/PrepareAddOnNextDevIter.java:123 | a major number with a leading zero ("01.2.3") is not a version |
| SemVer.ParseRejectsMissingPatch | src/main/java/org/zaproxy/gradle/addon/misc/PrepareAddOnNextDevIter.java:123 | "1.2", with no patch number, is not a version |
| SemVer.ParseRejectsPreRelease | src/main/java/org/zaproxy/gradle/addon/misc/PrepareAddOnNextDevIter.java:123 | "1.2.3-beta" is not a plain version, because of the "-" |
| NextDevIter.VersionLine | src/main/java/org/zaproxy/gradle/addon/misc/PrepareAddOnNextDevIter.java:110-112 | the line is `version = "` then the version then `"`, and the version can be cut back out of it |
| NextDevIter.VersionLineInjective | src/main/java/org/zaproxy/gradle/addon/misc/PrepareAddOnNextDevIter.java:110-112 | two versions have the same version line only if they are equal |
| NextDevIter.BumpVersion | src/main/java/org/zaproxy/gradle/addon/misc/PrepareAddOnNextDevIter.java:114-128 | bumping fails, with the version in the error, exactly when the version is neither an int nor a plain semantic version; a bumped version has only digits, '-' and '.' |
| NextDevIter.BumpIntegerVersion | src/main/java/org/zaproxy/gradle/addon/misc/PrepareAddOnNextDevIter.java:115-117 | an int version below Integer.MAX_VALUE bumps to the decimal text of its successor, which parses back as n+1 |
| NextDevIter.BumpIntegerOverflow | src/main/java/org/zaproxy/gradle/addon/misc/PrepareAddOnNextDevIter.java:115-117 | Integer.MAX_VALUE bumps, by int overflow, to the text of Integer.MIN_VALUE, "-" followed by 2147483648 |
| NextDevIter.SemVerIsNotInt | src/main/java/org/zaproxy/gradle/addon/misc/PrepareAddOnNextDevIter.java:115-123 | a plain semantic version never parses as an int, so the semantic branch is the one taken |
| NextDevIter.BumpSemVerVersion | src/main/java/org/zaproxy/gradle/addon/misc/PrepareAddOnNextDevIter.java:122-123 | X.Y.Z bumps to text whose parts are the same major numeral X, the numeral of Y+1, and "0", which parses as X.(Y+1).0 |
| NextDevIter.ReadLines | src/main/java/org/zaproxy/gradle/addon/misc/PrepareAddOnNextDevIter.java:91 | the lines read never contain a line break |
| NextDevIter.LineEnd | src/main/java/org/zaproxy/gradle/addon/misc/PrepareAddOnNextDevIter.java:91 | the end of the line `readLine` reads is the first "\n" or "\r", or the end of the text when there is none |
| NextDevIter.ReadFirstLine | src/main/java/org/zaproxy/gradle/addon/misc/PrepareAddOnNextDevIter.java:91 | a line ended by "\n" is read as that line, and reading goes on after the break |
| NextDevIter.ReadCrLfLine | src/main/java/org/zaproxy/gradle/addon/misc/PrepareAddOnNextDevIter.java:91 | a line ended by "\r\n" is read as that line, and the "\n" does not start an empty line |
| NextDevIter.ReadCrLine | src/main/java/org/zaproxy/gradle/addon/misc/PrepareAddOnNextDevIter.java:91 | a line ended by a lone "\r" is read as that line |
| NextDevIter.ReadLastLine | src/main/java/org/zaproxy/gradle/addon/misc/PrepareAddOnNextDevIter.java:91 | text after the last break, without a break of its own, is still a line |
| NextDevIter.Render | src/main/java/org/zaproxy/gradle/addon/misc/PrepareAddOnNextDevIter.java:96-97 | the text written has at least one character per line and ends with "\n" when any line is written; ReadRender reads it back |
| NextDevIter.ReadRender | src/main/java/org/zaproxy/gradle/addon/misc/PrepareAddOnNextDevIter.java:91-98 | lines written each followed by "\n" are read back as the same lines, same count and contents |
| NextDevIter.ReplaceFirst | src/main/java/org/zaproxy/gradle/addon/misc/PrepareAddOnNextDevIter.java:87-98 | the copy has as many lines as the input |
| NextDevIter.ReplaceFirstReplacesOnlyFirst | src/main/java/org/zaproxy/gradle/addon/misc/PrepareAddOnNextDevIter.java:87-98 | the first line equal to the target becomes the replacement; every other line, later copies of the target included, is unchanged |
| NextDevIter.ReplaceFirstAppend | src/main/java/org/zaproxy/gradle/addon/misc/PrepareAddOnNextDevIter.java:92-97 | one more input line adds exactly one output line: the replacement if it is the first match, the line itself otherwise |
| NextDevIter.RewriteLoopStep | src/main/java/org/zaproxy/gradle/addon/misc/PrepareAddOnNextDevIter.java:91-98 | one turn of the copy loop keeps the flag "not yet replaced" equal to "target not yet seen", and extends the output by exactly the rendered next line |
| NextDevIter.RewriteLines | src/main/java/org/zaproxy/gradle/addon/misc/PrepareAddOnNextDevIter.java:87-99 | the copy loop writes every line with "\n", the first match replaced, and reports a replacement exactly when the target line occurs |
| NextDevIter.UpdateBuildFile | src/main/java/org/zaproxy/gradle/addon/misc/PrepareAddOnNextDevIter.java:79-108 | an unbumpable version fails first; a missing current-version line fails with that line; otherwise the output re-reads as the input lines with only the first current-version line replaced by the new one |
| ReleaseStateLastCommit.BoundedWalk | src/main/java/org/zaproxy/gradle/addon/internal/tasks/GenerateReleaseStateLastCommit.java:217-232 | the collected commits are a prefix of the walk that stops only when the walk ends or the count is reached, and is non-empty for a non-empty walk |
| ReleaseStateLastCommit.CollectWalk | src/main/java/org/zaproxy/gradle/addon/internal/tasks/GenerateReleaseStateLastCommit.java:221-226 | the add-then-break loop collects exactly that bounded prefix |
| ReleaseStateLastCommit.WalkTree | src/main/java/org/zaproxy/gradle/addon/internal/tasks/GenerateReleaseStateLastCommit.java:217-232 | a walk from a commit that is not stored fails with a traversal error; otherwise it gives the bounded prefix of that commit's walk |
| ReleaseStateLastCommit.FirstAlreadySeen | src/main/java/org/zaproxy/gradle/addon/internal/tasks/GenerateReleaseStateLastCommit.java:206-211 | the answer is the first candidate already in the set or met earlier in the list; there is no answer exactly when no candidate is |
| ReleaseStateLastCommit.Elements | src/main/java/org/zaproxy/gradle/addon/internal/tasks/GenerateReleaseStateLastCommit.java:206 | the set built from the first walk holds exactly the commits of that walk |
| ReleaseStateLastCommit.FindFirstAlreadySeen | src/main/java/org/zaproxy/gradle/addon/internal/tasks/GenerateReleaseStateLastCommit.java:206-211 | the loop over a mutable set finds the same commit as that search |
| ReleaseStateLastCommit.GetCommonAncestor | src/main/java/org/zaproxy/gradle/addon/internal/tasks/GenerateReleaseStateLastCommit.java:201-215 | a walk that cannot start fails first; a found ancestor lies within the second commit's 50-commit walk |
| ReleaseStateLastCommit.CommonAncestorIsFirstShared | src/main/java/org/zaproxy/gradle/addon/internal/tasks/GenerateReleaseStateLastCommit.java:203-214 | in a well-formed repository the ancestor is in both bounded walks and is the earliest commit of the second walk that the first one holds; "common ancestor not found" happens exactly when the bounded walks share nothing |
| ReleaseStateLastCommit.SharedCommitWithinBoundIsFound | src/main/java/org/zaproxy/gradle/addon/internal/tasks/GenerateReleaseStateLastCommit.java:203-211 | a commit both bounded walks reach guarantees an ancestor is found, and it comes no later in the second walk |
| ReleaseStateLastCommit.IsMergeCommit | src/main/java/org/zaproxy/gradle/addon/internal/tasks/GenerateReleaseStateLastCommit.java:186-188 | a commit with more than one parent is a merge (no ensures: the predicate is used by PreviousCommit and MergeComparesWithSharedAncestor) |
| ReleaseStateLastCommit.PreviousCommit | src/main/java/org/zaproxy/gradle/addon/internal/tasks/GenerateReleaseStateLastCommit.java:134-143 | one parent: that parent; two or more: the common ancestor of the first two; none: the NoParent error |
| ReleaseStateLastCommit.MergeComparesWithSharedAncestor | src/main/java/org/zaproxy/gradle/addon/internal/tasks/GenerateReleaseStateLastCommit.java:135-140 | a merge head is compared with a commit that both of its first two parents reach within 50 commits |
| ReleaseStateLastCommit.FirstModification | src/main/java/org/zaproxy/gradle/addon/internal/tasks/GenerateReleaseStateLastCommit.java:252-257 | the result is the earliest entry that is a MODIFY whose new path is the file; there is none exactly when no entry is |
| ReleaseStateLastCommit.IsFileChanged | src/main/java/org/zaproxy/gradle/addon/internal/tasks/GenerateReleaseStateLastCommit.java:247-263 | fails with a diff error exactly when a commit or the diff is missing; otherwise the answer is the first MODIFY entry of the diff for the file, which belongs to the diff |
| ReleaseStateLastCommit.CreateProperties | src/main/java/org/zaproxy/gradle/addon/internal/tasks/GenerateReleaseStateLastCommit.java:190-199 | a stored object gives its properties; any other fails with a read error |
| ReleaseStateLastCommit.ReadProperties | src/main/java/org/zaproxy/gradle/addon/internal/tasks/GenerateReleaseStateLastCommit.java:109-158 | an unreadable head is a repository error; a file missing from the head is "file not found"; an unreadable current object is a read error; then a failing choice of the compared commit (no parent, no common ancestor) fails with its error, a missing diff or unreadable compared commit with a diff error, and an unreadable old object with a read error; on success the current properties are those of the file in the head's tree, and the previous ones are read from the old object of the first MODIFY entry of the diff from the compared commit, or are the current ones without such an entry; when every object is present the read succeeds |
| ReleaseStateLastCommit.Assemble | src/main/java/org/zaproxy/gradle/addon/internal/tasks/GenerateReleaseStateLastCommit.java:92-101 | the versions are the `version` values, copied verbatim or absent; a flag is true exactly when `release` is present and reads as true |
| ReleaseStateLastCommit.ResolveReleaseState | src/main/java/org/zaproxy/gradle/addon/internal/tasks/GenerateReleaseStateLastCommit.java:86-102 | a project's state fails exactly when reading its properties fails, with the same error; a state carries the head file's `version` value and its `release` flag as current |
| ReleaseStateLastCommit.MissingFileFails | src/main/java/org/zaproxy/gradle/addon/internal/tasks/GenerateReleaseStateLastCommit.java:118-132 | a file missing at the head always gives "file not found", never default properties |
| ReleaseStateLastCommit.RootHeadFails | src/main/java/org/zaproxy/gradle/addon/internal/tasks/GenerateReleaseStateLastCommit.java:134-143 | a head without parents fails with NoParent, where `getParent(0)` would throw |
| ReleaseStateLastCommit.NoCommonAncestorFails | src/main/java/org/zaproxy/gradle/addon/internal/tasks/GenerateReleaseStateLastCommit.java:134-143 | a merge whose first two parents share no commit within their 50-commit walks fails with "common ancestor not found" for those two parents |
| ReleaseStateLastCommit.UnmodifiedFileGivesSameState | src/main/java/org/zaproxy/gradle/addon/internal/tasks/GenerateReleaseStateLastCommit.java:145-151 | with no MODIFY entry for the file, ADD, DELETE, RENAME and COPY included, the previous version and flag equal the current ones |
| ReleaseStateLastCommit.ModifiedFileGivesPredecessorState | src/main/java/org/zaproxy/gradle/addon/internal/tasks/GenerateReleaseStateLastCommit.java:145-151 | with a MODIFY entry for the file, the previous version and flag are read from the old object of the first such entry |
| ReleaseStateLastCommit.LinearHistoryExample | src/main/java/org/zaproxy/gradle/addon/internal/tasks/GenerateReleaseStateLastCommit.java:109-158 | in history A, B, C with the version bumped to a release at C, the state at C is 1.0/false before and 1.1/true after |
| ReleaseStateLastCommit.MergeExampleAncestor | src/main/java/org/zaproxy/gradle/addon/internal/tasks/GenerateReleaseStateLastCommit.java:134-143 | a merge of two branches that fork at A is compared with A, not with either parent |
| ReleaseStateLastCommit.MergeExample | src/main/java/org/zaproxy/gradle/addon/internal/tasks/GenerateReleaseStateLastCommit.java:134-151 | the merge's previous state is read from A, through the first MODIFY entry of the diff; an unrelated ADD entry is skipped |
| ReleaseStateLastCommit.GenerateEach | src/main/java/org/zaproxy/gradle/addon/internal/tasks/GenerateReleaseStateLastCommit.java:85-105 | a run writes at most one state per project, and ends without error exactly when it writes one for every project |
| ReleaseStateLastCommit.GenerateEachWrites | src/main/java/org/zaproxy/gradle/addon/internal/tasks/GenerateReleaseStateLastCommit.java:85-103 | projects are handled in order: the i-th state written is the i-th project's state, written to that project's output file |
| ReleaseStateLastCommit.GenerateEachStops | src/main/java/org/zaproxy/gradle/addon/internal/tasks/GenerateReleaseStateLastCommit.java:85-105 | a run that stops does so at the first project that fails, with that project's error |
| ReleaseStateLastCommit.Generate | src/main/java/org/zaproxy/gradle/addon/internal/tasks/GenerateReleaseStateLastCommit.java:80-107 | no HEAD ref: nothing is written; otherwise every project is resolved against the same head commit, with the same guarantees |
| ReleaseStateLastCommit.GenerateEachAppend | src/main/java/org/zaproxy/gradle/addon/internal/tasks/GenerateReleaseStateLastCommit.java:85-105 | projects are independent: after a successful first list, a run over two lists writes what the two separate runs write |
| ApiGenerator.Name | apigen/src/main/java/org/zaproxy/zap/extension/api/ApiGenerator.java:45-56 | every constant's name is a non-empty upper-case ASCII word |
| ApiGenerator.Ordinal | apigen/src/main/java/org/zaproxy/zap/extension/api/ApiGenerator.java:45-56 | each constant sits at its ordinal in the declaration order |
| ApiGenerator.OutputDir | apigen/src/main/java/org/zaproxy/zap/extension/api/ApiGenerator.java:45-56 | each generator's output directory is a non-empty relative path |
| ApiGenerator.ParsePath | apigen/src/main/java/org/zaproxy/zap/extension/api/ApiGenerator.java:130 | a path is absolute exactly when it starts with "/"; its names are non-empty and contain no "/" |
| ApiGenerator.NonEmptyNames | apigen/src/main/java/org/zaproxy/zap/extension/api/ApiGenerator.java:130 | the names kept are non-empty parts of the input |
| ApiGenerator.NonEmptyNamesAppend | apigen/src/main/java/org/zaproxy/zap/extension/api/ApiGenerator.java:130 | dropping empty parts works piecewise, so the kept parts keep their order |
| ApiGenerator.NonEmptyNamesKeepsNames | apigen/src/main/java/org/zaproxy/zap/extension/api/ApiGenerator.java:130 | parts that are all non-empty are all kept |
| ApiGenerator.ParsePathOfJoin | apigen/src/main/java/org/zaproxy/zap/extension/api/ApiGenerator.java:130 | non-empty names without "/" joined by "/" parse back as the relative path of exactly those names |
| ApiGenerator.ParsePathOfRootedJoin | apigen/src/main/java/org/zaproxy/zap/extension/api/ApiGenerator.java:130 | the same text after a leading "/" parses as the absolute path of those names |
| ApiGenerator.Resolve | apigen/src/main/java/org/zaproxy/zap/extension/api/ApiGenerator.java:79 | an absolute path replaces the base; a relative one is appended to the base's names |
| ApiGenerator.ToAbsolute | apigen/src/main/java/org/zaproxy/zap/extension/api/ApiGenerator.java:157 | the result is absolute; a relative path is placed under the working directory |
| ApiGenerator.CreateWrapper | apigen/src/main/java/org/zaproxy/zap/extension/api/ApiGenerator.java:78-80 | the wrapper runs that generator, and its absolute output directory is the base directory followed by the generator's relative directory |
| ApiGenerator.CreateWrappers | apigen/src/main/java/org/zaproxy/zap/extension/api/ApiGenerator.java:70-72 | one wrapper per generator, in the same order, each made by createWrapper |
| ApiGenerator.ConcreteGenerators | apigen/src/main/java/org/zaproxy/zap/extension/api/ApiGenerator.java:68-69 | the generators other than ALL are the constants at ordinals 1 to 7, in order |
| ApiGenerator.ConcreteGeneratorsCover | apigen/src/main/java/org/zaproxy/zap/extension/api/ApiGenerator.java:67-69 | every generator other than ALL is in that list |
| ApiGenerator.AllWrappers | apigen/src/main/java/org/zaproxy/zap/extension/api/ApiGenerator.java:67-72 | seven wrappers; the i-th is for the generator at ordinal i+1; every concrete generator is present |
| ApiGenerator.CreateApiGenerators | apigen/src/main/java/org/zaproxy/zap/extension/api/ApiGenerator.java:66-76 | ALL gives every concrete generator in declaration order (DOTNET, GO, JAVA, NODEJS, PHP, PYTHON, RUST); any other gives a singleton of itself; every wrapper is created by createWrapper |
| ApiGenerator.ValueOf | apigen/src/main/java/org/zaproxy/zap/extension/api/ApiGenerator.java:86 | a found constant has exactly that name; failure exactly when no constant has it |
| ApiGenerator.From | apigen/src/main/java/org/zaproxy/zap/extension/api/ApiGenerator.java:82-87 | null or "" gives ALL; any other value selects the constant named by its root-locale upper case, and fails exactly when there is none |
| ApiGenerator.FromIgnoresCase | apigen/src/main/java/org/zaproxy/zap/extension/api/ApiGenerator.java:86 | any case variant of a constant's name selects that constant ("all" gives ALL) |
| ApiGenerator.FromAsciiIsCaseVariant | apigen/src/main/java/org/zaproxy/zap/extension/api/ApiGenerator.java:86 | non-empty ASCII text selects a constant only if it is a case variant of its name |
| ApiGenerator.FromOtherNonAsciiFails | apigen/src/main/java/org/zaproxy/zap/extension/api/ApiGenerator.java:86 | text holding any other non-ASCII character names no constant: "gö" upper-cases to "GÖ" and `valueOf` throws |
| ApiGenerator.FromLigature | apigen/src/main/java/org/zaproxy/zap/extension/api/ApiGenerator.java:86 | "ru" followed by the "st" ligature upper-cases to RUST and selects it |
| ApiGenerator.IsNullOrEmpty | apigen/src/main/java/org/zaproxy/zap/extension/api/ApiGenerator.java:126 | a setting is missing or the empty text (no ensures: the test `getBaseDir`, `main` and `from` share) |
| ApiGenerator.GetBaseDir | apigen/src/main/java/org/zaproxy/zap/extension/api/ApiGenerator.java:124-136 | a missing or empty `basedir` fails with "null or empty" exactly then; otherwise the call succeeds exactly when the path, made absolute, names an existing directory, gives that path, and fails with "not a directory" carrying the value |
| ApiGenerator.Plan | apigen/src/main/java/org/zaproxy/zap/extension/api/ApiGenerator.java:91-122 | no configuration file fails first, then any basedir error, then a missing or empty `api`; then an unknown `language` fails with its error, and a known one gives the wrappers `createApiGenerators` makes for it under the base directory: one to seven, with absolute output directories |

## Left out

- Repository access is data, not code. Opening the `.git` directory, resolving `HEAD` and parsing commits are not modelled. Neither are the commit walk's own ordering, the tree walk with its path filter, object streams, diff computation and closing the repository. A missing `HEAD` is `Repository.head == None`.
- `Properties.load` is not modelled: a stored file is its parsed key/value map.
- Tree lookup uses the exact path. `readProperties`'s path filter would also match a directory of that name and take its first file; that case is not modelled.
- `ReleaseState.write` and every other file write, the temporary directory and `Files.copy` are not modelled. A run records which state goes to which output file.
- Changelog maintenance (`super.prepare()`) is not part of this model.
- Class loading for `api` and `options`, constructor selection, `ResourceBundle` loading and the per-language file emitters are reflection and I/O. `ApiGenerator.Plan` assumes the `api` class loads, so a failing `Class.forName` cannot come before a bad `language`.
- The GitHub release task and the dependency data holder are outside the modelled core. Gradle task and property wiring is left out too.
- BumpVersion: a version with pre-release or build metadata (`1.2.3-beta`) is rejected by the model. The semantic-version library accepts such a version and bumps it, and its grammar is not part of this model.
- SemVer.Parse: components are unbounded naturals. The library's own integer limits on major, minor and patch are not modelled.
- JavaLang.ParseInt: only ASCII digits are accepted. `Integer.parseInt` also accepts other Unicode decimal digits.
- JavaLang.UpperChar: only the ASCII letters, and the non-ASCII characters whose upper case is ASCII, are mapped. Any other character is kept as it is. This decides the same generator names, because the true upper case of such a character is not ASCII either: ApiGenerator.FromOtherNonAsciiFails proves that such text selects no constant.
- ApiGenerator.ParsePath: paths are POSIX paths. Windows drive letters and backslash separators are not modelled. Neither is the `InvalidPathException` that `Paths.get` throws for a NUL character.

=== FILE: api_generator.dfy ===
/** Choosing the client-API generators to run and where each one writes:
    the `language` setting names one generator or all of them, and every
    generator writes below the configured base directory. */
module ApiGenerator {
  import opened Results
  import opened Text
  import opened JavaLang

  /** The generators, in declaration order. */
  datatype Generator = ALL | DOTNET | GO | JAVA | NODEJS | PHP | PYTHON | RUST

  const DECLARED: seq<Generator> := [ALL, DOTNET, GO, JAVA, NODEJS, PHP, PYTHON, RUST]

  /** A generator that produces files, i.e. any but `ALL`. */
  type Concrete = g: Generator | g != ALL witness DOTNET

  /** The constant's name, as `valueOf` matches it. */
  function Name(g: Generator): (name: string)
    ensures |name| > 0 && IsUpperWord(name)
  {
    match g
    case ALL => "ALL"
    case DOTNET => "DOTNET"
    case GO => "GO"
    case JAVA => "JAVA"
    case NODEJS => "NODEJS"
    case PHP => "PHP"
    case PYTHON => "PYTHON"
    case RUST => "RUST"
  }

  /** The position of the constant in the declaration. */
  function Ordinal(g: Generator): (n: nat)
    ensures n < |DECLARED| && DECLARED[n] == g
  {
    match g
    case ALL => 0
    case DOTNET => 1
    case GO => 2
    case JAVA => 3
    case NODEJS => 4
    case PHP => 5
    case PYTHON => 6
    case RUST => 7
  }

  /** The directory, relative to the base directory, a generator writes to.
      The two longest are each the concatenation of their first directory
      level and the rest of the path. */
  function OutputDir(g: Concrete): (dir: string)
    ensures |dir| > 0 && dir[0] != '/'
  {
    match g
    case DOTNET => "zap-api-dotnet/src/" + "OWASPZAPDotNetAPI/OWASPZAPDotNetAPI/Generated"
    case GO => "zap-api-go/zap/"
    case JAVA => "zap-api-java/subprojects/" + "zap-clientapi/src/main/java/org/zaproxy/clientapi/gen"
    case NODEJS => "zap-api-nodejs/src/"
    case PHP => "zaproxy/php/api/zapv2/src/Zap"
    case PYTHON => "zap-api-python/src/zapv2/"
    case RUST => "zap-api-rust/src/"
  }

  datatype ApiGenError =
    | ConfigurationMissing                  // "Configuration file does not exist", exit status 1
    | PropertyNullOrEmpty(property: string) // "The property <p> is null or empty."
    | NotADirectory(path: string)           // "The property basedir is not a directory or does not exist"
    | NoEnumConstant(name: string)          // `valueOf` of an unknown name

  // ---------------------------------------------------------------------
  // Paths

  /** A file-system path: whether it is absolute, and its name elements. */
  datatype Path = Path(absolute: bool, names: seq<string>)

  /** The parts that are not empty, in their order. */
  function NonEmptyNames(parts: seq<string>): (names: seq<string>)
    ensures forall k :: 0 <= k < |names| ==> names[k] != "" && names[k] in parts
  {
    if |parts| == 0 then []
    else if parts[0] == "" then NonEmptyNames(parts[1..])
    else [parts[0]] + NonEmptyNames(parts[1..])
  }

  /** Dropping empty parts works piecewise: the kept parts keep their order. */
  lemma {:induction false} NonEmptyNamesAppend(a: seq<string>, b: seq<string>)
    ensures NonEmptyNames(a + b) == NonEmptyNames(a) + NonEmptyNames(b)
    decreases |a|
  {
    if |a| > 0 {
      assert (a + b)[0] == a[0];
      assert (a + b)[1..] == a[1..] + b;
      NonEmptyNamesAppend(a[1..], b);
    } else {
      assert a + b == b;
    }
  }

  /** Parts that are all non-empty are all kept. */
  lemma {:induction false} NonEmptyNamesKeepsNames(parts: seq<string>)
    requires forall k :: 0 <= k < |parts| ==> parts[k] != ""
    ensures NonEmptyNames(parts) == parts
    decreases |parts|
  {
    if |parts| > 0 {
      NonEmptyNamesKeepsNames(parts[1..]);
      assert parts == [parts[0]] + parts[1..];
    }
  }

  /** `Paths.get(s)`: absolute when it starts with "/", and with repeated
      and trailing separators dropped. */
  function ParsePath(s: string): (p: Path)
    ensures p.absolute <==> |s| > 0 && s[0] == '/'
    ensures forall k :: 0 <= k < |p.names| ==> p.names[k] != "" && '/' !in p.names[k]
  {
    Path(|s| > 0 && s[0] == '/', NonEmptyNames(Split(s, '/')))
  }

  /** Non-empty names without "/" joined by "/" parse back as the relative
      path of exactly those names. */
  lemma ParsePathOfJoin(names: seq<string>)
    requires |names| > 0
    requires forall k :: 0 <= k < |names| ==> names[k] != "" && '/' !in names[k]
    ensures ParsePath(Join(names, '/')) == Path(false, names)
  {
    var s := Join(names, '/');
    if |names| > 1 {
      assert s == names[0] + ['/'] + Join(names[1..], '/');
    }
    assert s[0] == names[0][0] && names[0][0] in names[0];
    SplitJoin(names, '/');
    NonEmptyNamesKeepsNames(names);
  }

  /** The same names after a leading "/" parse as the absolute path of those
      names. */
  lemma ParsePathOfRootedJoin(names: seq<string>)
    requires |names| > 0
    requires forall k :: 0 <= k < |names| ==> names[k] != "" && '/' !in names[k]
    ensures ParsePath("/" + Join(names, '/')) == Path(true, names)
  {
    var s := "/" + Join(names, '/');
    assert IndexOf(s, '/') == 0;
    assert s[1..] == Join(names, '/');
    assert s[..0] == "";
    SplitJoin(names, '/');
    assert Split(s, '/') == [""] + names;
    assert ([""] + names)[1..] == names;
    NonEmptyNamesKeepsNames(names);
  }

  /** `Path.resolve`: an absolute `other` replaces `base`, an empty one
      leaves it, any other is appended to it. */
  function Resolve(base: Path, other: Path): (r: Path)
    ensures !other.absolute ==> r == Path(base.absolute, base.names + other.names)
    ensures other.absolute ==> r == other
  {
    if other.absolute then other
    else if other.names == [] then
      assert base.names + other.names == base.names;
      base
    else Path(base.absolute, base.names + other.names)
  }

  /** `Path.toAbsolutePath` against the working directory `cwd`. */
  function ToAbsolute(p: Path, cwd: Path): (r: Path)
    requires cwd.absolute
    ensures r.absolute
    ensures p.absolute ==> r == p
    ensures !p.absolute ==> r.names == cwd.names + p.names
  {
    if p.absolute then p else Resolve(cwd, p)
  }

  // ---------------------------------------------------------------------
  // Generators

  /** The wrapper that runs one generator into its output directory. */
  datatype Wrapper = Wrapper(generator: Concrete, outputDir: Path)

  /** `createWrapper`: the generator with the base directory resolved with
      its relative output directory, made absolute. */
  function CreateWrapper(g: Concrete, baseDir: Path, cwd: Path): (w: Wrapper)
    requires cwd.absolute
    ensures w.generator == g
    ensures w.outputDir.absolute
    ensures w.outputDir.names
            == (if baseDir.absolute then baseDir.names else cwd.names + baseDir.names)
               + ParsePath(OutputDir(g)).names
  {
    Wrapper(g, ToAbsolute(Resolve(baseDir, ParsePath(OutputDir(g))), cwd))
  }

  /** One wrapper per generator, in order. */
  function CreateWrappers(gs: seq<Concrete>, baseDir: Path, cwd: Path): (ws: seq<Wrapper>)
    requires cwd.absolute
    ensures |ws| == |gs|
    ensures forall i :: 0 <= i < |gs| ==> ws[i] == CreateWrapper(gs[i], baseDir, cwd)
    ensures forall i :: 0 <= i < |gs| ==> ws[i].generator == gs[i]
  {
    if |gs| == 0 then [] else [CreateWrapper(gs[0], baseDir, cwd)] + CreateWrappers(gs[1..], baseDir, cwd)
  }

  /** The constants after `ALL` (declared first), which `EnumSet.allOf`
      lists in declaration order. */
  function ConcreteGenerators(): (gs: seq<Concrete>)
    ensures |gs| == |DECLARED| - 1
    ensures forall i :: 0 <= i < |gs| ==> Ordinal(gs[i]) == i + 1
  {
    [DOTNET, GO, JAVA, NODEJS, PHP, PYTHON, RUST]
  }

  /** The wrappers of every concrete generator, in declaration order. */
  function AllWrappers(baseDir: Path, cwd: Path): (ws: seq<Wrapper>)
    requires cwd.absolute
    ensures |ws| == |DECLARED| - 1
    ensures forall i :: 0 <= i < |ws| ==> ws[i] == CreateWrapper(ws[i].generator, baseDir, cwd)
    ensures forall i :: 0 <= i < |ws| ==> Ordinal(ws[i].generator) == i + 1
    ensures forall c: Generator :: c != ALL ==> ws[Ordinal(c) - 1].generator == c
  {
    var gs := ConcreteGenerators();
    var ws := CreateWrappers(gs, baseDir, cwd);
    assert forall c: Generator :: c != ALL ==> ws[Ordinal(c) - 1].generator == c by {
      forall c: Generator | c != ALL ensures ws[Ordinal(c) - 1].generator == c {
        ConcreteGeneratorsCover(c);
      }
    }
    ws
  }

  /** Every concrete generator is listed, at the position before its ordinal. */
  lemma ConcreteGeneratorsCover(c: Generator)
    requires c != ALL
    ensures ConcreteGenerators()[Ordinal(c) - 1] == c
  {
    var gs := ConcreteGenerators();
    assert Ordinal(gs[Ordinal(c) - 1]) == Ordinal(c);
  }

  /** `createApiGenerators`: every concrete generator, in declaration order,
      for `ALL`; the generator alone otherwise. */
  function CreateApiGenerators(g: Generator, baseDir: Path, cwd: Path): (ws: seq<Wrapper>)
    requires cwd.absolute
    ensures forall i :: 0 <= i < |ws| ==> ws[i] == CreateWrapper(ws[i].generator, baseDir, cwd)
    ensures g != ALL ==> |ws| == 1 && ws[0].generator == g
    ensures g == ALL ==> |ws| == |DECLARED| - 1
    ensures g == ALL ==> forall i :: 0 <= i < |ws| ==> Ordinal(ws[i].generator) == i + 1
    ensures g == ALL ==> forall c: Generator :: c != ALL ==> ws[Ordinal(c) - 1].generator == c
  {
    if g == ALL then AllWrappers(baseDir, cwd) else [CreateWrapper(g, baseDir, cwd)]
  }

  /** `valueOf`: the constant with exactly this name. */
  function ValueOf(name: string): (r: Result<Generator, ApiGenError>)
    ensures r.Success? ==> Name(r.value) == name
    ensures r.Failure? <==> forall g: Generator :: Name(g) != name
    ensures r.Failure? ==> r.error == NoEnumConstant(name)
  {
    if name == "ALL" then Success(ALL)
    else if name == "DOTNET" then Success(DOTNET)
    else if name == "GO" then Success(GO)
    else if name == "JAVA" then Success(JAVA)
    else if name == "NODEJS" then Success(NODEJS)
    else if name == "PHP" then Success(PHP)
    else if name == "PYTHON" then Success(PYTHON)
    else if name == "RUST" then Success(RUST)
    else Failure(NoEnumConstant(name))
  }

  /** `Generator.from`: no value, or an empty one, means `ALL`; any other is
      upper-cased and must then be a constant's name. */
  function From(value: Option<string>): (r: Result<Generator, ApiGenError>)
    ensures value.None? || value == Some("") ==> r == Success(ALL)
    ensures value.Some? && value.value != "" && r.Success? ==> Name(r.value) == ToUpperRoot(value.value)
    ensures value.Some? && value.value != "" ==>
              (r.Failure? <==> forall g: Generator :: Name(g) != ToUpperRoot(value.value))
  {
    if value.None? || value.value == "" then Success(ALL)
    else ValueOf(ToUpperRoot(value.value))
  }

  /** The language is matched ignoring the case of its letters. */
  lemma FromIgnoresCase(s: string, g: Generator)
    requires EqualsIgnoreAsciiCase(s, Name(g))
    ensures From(Some(s)) == Success(g)
  {
    ToUpperRootOfCaseVariant(s, Name(g));
  }

  /** For ASCII text, matching ignoring case is the only way to select a
      generator explicitly. */
  lemma FromAsciiIsCaseVariant(s: string, g: Generator)
    requires IsAscii(s) && s != "" && From(Some(s)) == Success(g)
    ensures EqualsIgnoreAsciiCase(s, Name(g))
  {
    UpperWordOfAsciiIsCaseVariant(s, Name(g));
  }

  /** Any other non-ASCII character survives upper-casing, so text holding
      one names no constant (`valueOf` throws for "gö", whose upper case is
      "GÖ"). */
  lemma FromOtherNonAsciiFails(s: string, i: nat)
    requires i < |s| && s[i] >= '\U{0080}' && s[i] !in ASCII_UPPER_SOURCES
    ensures From(Some(s)).Failure?
  {
    var u := ToUpperRoot(s);
    ToUpperRootKeepsOtherNonAscii(s, i);
    forall g: Generator ensures Name(g) != u {
      var j :| 0 <= j < |u| && u[j] == s[i];
      if |Name(g)| == |u| {
        assert Name(g)[j] != u[j];
      }
    }
  }

  /** Upper-casing can also turn a non-ASCII letter into the name: the
      ligature "st" selects RUST. */
  lemma FromLigature()
    ensures From(Some("ru\U{FB06}")) == Success(RUST)
  {
    var s := "ru\U{FB06}";
    assert ToUpperRoot(s) == "RUST" by {
      assert ToUpperRoot(s) == "R" + ToUpperRoot(s[1..]);
      assert ToUpperRoot(s[1..]) == "U" + ToUpperRoot(s[2..]);
      assert ToUpperRoot(s[2..]) == "ST";
    }
    assert ValueOf("RUST") == Success(RUST);
  }

  // ---------------------------------------------------------------------
  // Configuration

  predicate IsNullOrEmpty(value: Option<string>) {
    value.None? || value.value == ""
  }

  /** `getBaseDir`: the `basedir` property, which must be set and name an
      existing directory (`directories` holds those, as absolute paths). */
  function GetBaseDir(conf: map<string, string>, directories: set<Path>, cwd: Path): (r: Result<Path, ApiGenError>)
    requires cwd.absolute
    ensures IsNullOrEmpty(GetProperty(conf, "basedir")) <==> r == Failure(PropertyNullOrEmpty("basedir"))
    ensures r.Success? ==> "basedir" in conf && r.value == ParsePath(conf["basedir"])
                           && ToAbsolute(r.value, cwd) in directories
    ensures !IsNullOrEmpty(GetProperty(conf, "basedir"))
            ==> (r.Success? <==> ToAbsolute(ParsePath(conf["basedir"]), cwd) in directories)
    ensures !IsNullOrEmpty(GetProperty(conf, "basedir")) && r.Failure?
            ==> r.error == NotADirectory(conf["basedir"])
  {
    var path := GetProperty(conf, "basedir");
    if IsNullOrEmpty(path) then Failure(PropertyNullOrEmpty("basedir"))
    else
      var dir := ParsePath(path.value);
      if ToAbsolute(dir, cwd) !in directories then Failure(NotADirectory(path.value))
      else Success(dir)
  }

  /** The checks and choices of `main`: the configuration must exist, the
      base directory must be valid, the `api` property must be set, and the
      `language` property picks the generators. */
  function Plan(conf: Option<map<string, string>>, directories: set<Path>, cwd: Path)
    : (r: Result<seq<Wrapper>, ApiGenError>)
    requires cwd.absolute
    ensures conf.None? ==> r == Failure(ConfigurationMissing)
    ensures conf.Some? && IsNullOrEmpty(GetProperty(conf.value, "basedir"))
            ==> r == Failure(PropertyNullOrEmpty("basedir"))
    ensures conf.Some? && GetBaseDir(conf.value, directories, cwd).Success?
            && IsNullOrEmpty(GetProperty(conf.value, "api"))
            ==> r == Failure(PropertyNullOrEmpty("api"))
    ensures conf.Some? && GetBaseDir(conf.value, directories, cwd).Failure?
            ==> r == Failure(GetBaseDir(conf.value, directories, cwd).error)
    ensures conf.Some? && GetBaseDir(conf.value, directories, cwd).Success?
            && !IsNullOrEmpty(GetProperty(conf.value, "api"))
            ==> r == (match From(GetProperty(conf.value, "language"))
                      case Failure(e) => Failure(e)
                      case Success(g) => Success(CreateApiGenerators(g, GetBaseDir(conf.value, directories, cwd).value, cwd)))
    ensures r.Success? ==> conf.Some? && !IsNullOrEmpty(GetProperty(conf.value, "api"))
                           && !IsNullOrEmpty(GetProperty(conf.value, "basedir"))
    ensures r.Success? ==> 1 <= |r.value| <= |DECLARED| - 1
    ensures r.Success? ==> forall i :: 0 <= i < |r.value| ==> r.value[i].outputDir.absolute
  {
    if conf.None? then Failure(ConfigurationMissing)
    else
      var baseDir :- GetBaseDir(conf.value, directories, cwd);
      if IsNullOrEmpty(GetProperty(conf.value, "api")) then Failure(PropertyNullOrEmpty("api"))
      else
        var generator :- From(GetProperty(conf.value, "language"));
        Success(CreateApiGenerators(generator, baseDir, cwd))
  }
}

=== FILE: java_lang.dfy ===
/** The few `java.lang` behaviours the modelled tasks depend on: 32-bit `int`
    arithmetic, `Integer.parseInt`/`Integer.toString`, `Boolean.parseBoolean`
    and `String.toUpperCase(Locale.ROOT)`. */
module JavaLang {
  import opened Results
  import opened Text

  const MIN_INT: int := -0x8000_0000
  const MAX_INT: int := 0x7fff_ffff

  predicate IsInt32(n: int) {
    MIN_INT <= n <= MAX_INT
  }

  /** Two's-complement reduction of a mathematical integer into `int`, as
      Java's `int` arithmetic performs it. */
  function ToInt32(n: int): (r: int)
    ensures IsInt32(r)
    ensures (r - n) % 0x1_0000_0000 == 0
    ensures IsInt32(n) ==> r == n
  {
    (n - MIN_INT) % 0x1_0000_0000 + MIN_INT
  }

  /** `++i` on a Java `int`. */
  function Increment(n: int): (r: int)
    requires IsInt32(n)
    ensures n < MAX_INT ==> r == n + 1
    ensures n == MAX_INT ==> r == MIN_INT
  {
    ToInt32(n + 1)
  }

  /** `Integer.parseInt(s)`: an optional `-` or `+`, then at least one decimal
      digit, with a value inside the `int` range; `None` stands for the
      `NumberFormatException`. */
  function ParseInt(s: string): (r: Option<int>)
    ensures r.Some? ==> IsInt32(r.value) && |s| > 0
    ensures r.Some? && s[0] == '-' ==> r.value <= 0
    ensures r.Some? && s[0] != '-' ==> r.value >= 0
    ensures |s| > 0 && AllDigits(s) && DecimalValue(s) <= MAX_INT ==> r == Some(DecimalValue(s))
    ensures |s| > 0 && s[0] != '-' && s[0] != '+' && !AllDigits(s) ==> r.None?
    ensures |s| > 0 && AllDigits(s) && DecimalValue(s) > MAX_INT ==> r.None?
    ensures s == "-" || s == "+" ==> r.None?
    ensures |s| > 1 && (s[0] == '-' || s[0] == '+') && !AllDigits(s[1..]) ==> r.None?
    ensures |s| > 1 && s[0] == '-' && AllDigits(s[1..]) ==>
              r == (if DecimalValue(s[1..]) <= -MIN_INT then Some(-(DecimalValue(s[1..]) as int)) else None)
    ensures |s| > 1 && s[0] == '+' && AllDigits(s[1..]) ==>
              r == (if DecimalValue(s[1..]) <= MAX_INT then Some(DecimalValue(s[1..])) else None)
  {
    if |s| == 0 then None
    else
      var digits := if s[0] == '-' || s[0] == '+' then s[1..] else s;
      if |digits| == 0 || !AllDigits(digits) then None
      else
        var v: int := if s[0] == '-' then 0 - (DecimalValue(digits) as int) else DecimalValue(digits);
        if IsInt32(v) then Some(v) else None
  }

  /** `Integer.toString(n)`: a `-` for negative values, then the digits. */
  function IntToString(n: int): (s: string)
    ensures |s| > 0
    ensures forall i :: 0 <= i < |s| ==> IsDigit(s[i]) || s[i] == '-'
    ensures n >= 0 ==> IsCanonicalNumeral(s) && DecimalValue(s) == n
    ensures n < 0 ==> s[0] == '-' && IsCanonicalNumeral(s[1..]) && DecimalValue(s[1..]) == -n
  {
    if n < 0 then
      var digits := NatToDecimal(-n);
      assert ("-" + digits)[1..] == digits;
      "-" + digits
    else NatToDecimal(n)
  }

  /** Every `int` survives being written and parsed back. */
  lemma ParseIntToString(n: int)
    requires IsInt32(n)
    ensures ParseInt(IntToString(n)) == Some(n)
  {
    var s := IntToString(n);
    if n < 0 {
      assert s[1..] == NatToDecimal(-n);
    }
  }

  /** `Properties.getProperty(key)`: the value stored under `key`, or `None`
      for the `null` of a missing key. */
  function GetProperty(props: map<string, string>, key: string): (v: Option<string>)
    ensures v.Some? <==> key in props
    ensures v.Some? ==> v.value == props[key]
  {
    if key in props then Some(props[key]) else None
  }

  /** `Boolean.parseBoolean(s)`: true exactly for a non-null `s` equal to
      "true" ignoring case (for the letters of "true", ASCII folding is the
      whole of Java's `equalsIgnoreCase`). */
  function ParseBoolean(s: Option<string>): (b: bool)
    ensures b <==> s.Some? && |s.value| == 4
                   && s.value[0] in "tT" && s.value[1] in "rR"
                   && s.value[2] in "uU" && s.value[3] in "eE"
  {
    s.Some? && EqualsIgnoreAsciiCase(s.value, "true")
  }

  /** The non-ASCII characters whose root-locale upper case is ASCII: dotless
      i, long s, sharp s and the Latin ligatures U+FB00 to U+FB06. */
  const ASCII_UPPER_SOURCES: string :=
    "\U{0131}\U{017F}\U{00DF}\U{FB00}\U{FB01}\U{FB02}\U{FB03}\U{FB04}\U{FB05}\U{FB06}"

  /** `Character`/`String` upper-casing of one character under the root
      locale, as far as it can yield ASCII: the ASCII letters, and the
      characters of `ASCII_UPPER_SOURCES`. Other characters are kept as they
      are; their true upper case is non-ASCII as well. */

  function UpperChar(c: char): (u: string)
    ensures 1 <= |u| <= 3
    ensures c >= '\U{0080}' && c !in ASCII_UPPER_SOURCES ==> u == [c]
    ensures c < '\U{0080}' ==> u == [UpperAscii(c)]
    ensures forall i :: 0 <= i < |u| ==> u[i] < '\U{0080}' || u[i] == c
  {
    if c == '\U{0131}' then "I"
    else if c == '\U{017F}' then "S"
    else if c == '\U{00DF}' then "SS"
    else if c == '\U{FB00}' then "FF"
    else if c == '\U{FB01}' then "FI"
    else if c == '\U{FB02}' then "FL"
    else if c == '\U{FB03}' then "FFI"
    else if c == '\U{FB04}' then "FFL"
    else if c == '\U{FB05}' || c == '\U{FB06}' then "ST"
    else [UpperAscii(c)]
  }

  /** `s.toUpperCase(Locale.ROOT)`. */
  function ToUpperRoot(s: string): (u: string)
    ensures |u| >= |s|
  {
    if |s| == 0 then "" else UpperChar(s[0]) + ToUpperRoot(s[1..])
  }

  /** A non-ASCII character outside `ASCII_UPPER_SOURCES` survives
      upper-casing. */
  lemma {:induction false} ToUpperRootKeepsOtherNonAscii(s: string, i: nat)
    requires i < |s| && s[i] >= '\U{0080}' && s[i] !in ASCII_UPPER_SOURCES
    ensures s[i] in ToUpperRoot(s)
    decreases |s|
  {
    var head := UpperChar(s[0]);
    var rest := ToUpperRoot(s[1..]);
    assert ToUpperRoot(s) == head + rest;
    if i == 0 {
      assert (head + rest)[0] == s[0];
    } else {
      assert s[1..][i - 1] == s[i];
      ToUpperRootKeepsOtherNonAscii(s[1..], i - 1);
      var k :| 0 <= k < |rest| && rest[k] == s[i];
      assert (head + rest)[|head| + k] == s[i];
    }
  }

  predicate IsAscii(s: string) {
    forall i :: 0 <= i < |s| ==> s[i] < '\U{0080}'
  }

  predicate IsUpperWord(s: string) {
    forall i :: 0 <= i < |s| ==> 'A' <= s[i] <= 'Z'
  }

  /** On ASCII text, upper-casing works letter by letter and keeps the length. */
  lemma {:induction false} ToUpperRootAscii(s: string)
    requires IsAscii(s)
    ensures |ToUpperRoot(s)| == |s|
    ensures forall i :: 0 <= i < |s| ==> ToUpperRoot(s)[i] == UpperAscii(s[i])
    decreases |s|
  {
    if |s| > 0 {
      assert IsAscii(s[1..]) by {
        forall i | 0 <= i < |s[1..]| ensures s[1..][i] < '\U{0080}' {
          assert s[1..][i] == s[i + 1];
        }
      }
      ToUpperRootAscii(s[1..]);
    }
  }

  /** Upper-casing any case variant of an upper-case ASCII word gives the word. */
  lemma {:induction false} ToUpperRootOfCaseVariant(s: string, w: string)
    requires IsUpperWord(w) && EqualsIgnoreAsciiCase(s, w)
    ensures ToUpperRoot(s) == w
    decreases |s|
  {
    if |s| > 0 {
      assert LowerAscii(s[0]) == LowerAscii(w[0]);
      assert UpperChar(s[0]) == [w[0]];
      ToUpperRootOfCaseVariant(s[1..], w[1..]);
      assert w == [w[0]] + w[1..];
    }
  }

  /** For ASCII text the converse holds: if upper-casing gives an upper-case
      word, the text is a case variant of it. */
  lemma UpperWordOfAsciiIsCaseVariant(s: string, w: string)
    requires IsAscii(s) && IsUpperWord(w) && ToUpperRoot(s) == w
    ensures EqualsIgnoreAsciiCase(s, w)
  {
    ToUpperRootAscii(s);
  }
}

=== FILE: next_dev_iter.dfy ===
/** The build-file half of preparing an add-on's next development iteration:
    bump the current version and rewrite the first `version = "<current>"`
    line of the build file to carry the new version. */
module NextDevIter {
  import opened Results
  import opened Text
  import opened JavaLang
  import SemVer

  datatype DevIterError =
    | VersionNotParsed(version: string)   // "Failed to parse the current version"
    | VersionLineNotFound(line: string)   // "current version line not found"

  /** The build-file line declaring `version`. */
  function VersionLine(version: string): (line: string)
    ensures |line| == |version| + 12
    ensures line[..11] == "version = \"" && line[|line| - 1] == '"'
    ensures line[11..|line| - 1] == version
  {
    "version = \"" + version + "\""
  }

  /** Two versions declare the same line only when they are the same version. */
  lemma VersionLineInjective(a: string, b: string)
    requires VersionLine(a) == VersionLine(b)
    ensures a == b
  {
    assert a == VersionLine(a)[11..|VersionLine(a)| - 1];
  }

  /** A version that is a Java `int` goes to its successor (with `int`
      wrap-around); otherwise a plain semantic version goes to its next
      minor version; anything else cannot be bumped. */
  function BumpVersion(version: string): (r: Result<string, DevIterError>)
    ensures r.Failure? <==> ParseInt(version).None? && SemVer.Parse(version).None?
    ensures r.Failure? ==> r.error == VersionNotParsed(version)
    ensures r.Success? ==> forall i :: 0 <= i < |r.value| ==> IsDigit(r.value[i]) || r.value[i] in "-."
  {
    match ParseInt(version)
    case Some(n) => Success(IntToString(Increment(n)))
    case None =>
      match SemVer.Parse(version)
      case Some(v) => Success(SemVer.Format(SemVer.NextMinor(v)))
      case None => Failure(VersionNotParsed(version))
  }

  /** An integer version below `Integer.MAX_VALUE` bumps to the numeral of
      its successor. */
  lemma BumpIntegerVersion(version: string, n: int)
    requires ParseInt(version) == Some(n) && n < MAX_INT
    ensures BumpVersion(version).Success?
    ensures BumpVersion(version).value == IntToString(n + 1)
    ensures ParseInt(BumpVersion(version).value) == Some(n + 1)
  {
    ParseIntToString(n + 1);
  }

  /** `Integer.MAX_VALUE` bumps, by `int` overflow, to `Integer.MIN_VALUE`. */
  lemma BumpIntegerOverflow(version: string)
    requires ParseInt(version) == Some(MAX_INT)
    ensures BumpVersion(version).Success?
    ensures BumpVersion(version).value == IntToString(MIN_INT)
    ensures ParseInt(BumpVersion(version).value) == Some(MIN_INT)
  {
    ParseIntToString(MIN_INT);
  }

  /** A plain semantic version is never a Java `int`. */
  lemma SemVerIsNotInt(version: string)
    requires SemVer.Parse(version).Some?
    ensures ParseInt(version).None?
  {
    var i := IndexOf(version, '.');
    assert i < |version|;
    assert !IsDigit(version[i]);
  }

  /** `X.Y.Z` bumps to `X.(Y+1).0`, written with the same major numeral. */
  lemma BumpSemVerVersion(version: string)
    requires SemVer.Parse(version).Some?
    ensures BumpVersion(version).Success?
    ensures SemVer.Parse(BumpVersion(version).value)
            == Some(SemVer.Version(SemVer.Parse(version).value.major,
                                   SemVer.Parse(version).value.minor + 1, 0))
    ensures Split(BumpVersion(version).value, '.')
            == [Split(version, '.')[0], NatToDecimal(DecimalValue(Split(version, '.')[1]) + 1), "0"]
  {
    SemVerIsNotInt(version);
    var v := SemVer.Parse(version).value;
    SemVer.FormatParse(SemVer.NextMinor(v));
    SemVer.ParseFormat(version);
    assert NatToDecimal(0) == "0";
  }

  predicate IsLineBreak(c: char) {
    c == '\n' || c == '\r'
  }

  predicate NoLineBreak(s: string) {
    forall i :: 0 <= i < |s| ==> !IsLineBreak(s[i])
  }

  /** Index of the first line break of `s`, or `|s|`: the nearer of the
      first "\n" and the first "\r". */
  function LineEnd(s: string): (i: nat)
    ensures i <= |s|
    ensures i < |s| ==> IsLineBreak(s[i])
    ensures forall j :: 0 <= j < i ==> !IsLineBreak(s[j])
  {
    var newline := IndexOf(s, '\n');
    var carriageReturn := IndexOf(s, '\r');
    if newline < carriageReturn then newline else carriageReturn
  }

  /** The lines `BufferedReader.readLine` returns one after the other: a line
      ends at "\n", "\r" or "\r\n"; text after the last break is a final
      line; an empty rest gives no further line. */
  function ReadLines(s: string): (lines: seq<string>)
    ensures forall k :: 0 <= k < |lines| ==> NoLineBreak(lines[k])
    decreases |s|
  {
    if |s| == 0 then []
    else
      var i := LineEnd(s);
      if i == |s| then [s]
      else
        var next := if s[i] == '\r' && i + 1 < |s| && s[i + 1] == '\n' then i + 2 else i + 1;
        [s[..i]] + ReadLines(s[next..])
  }

  /** The text written for `lines`: each line followed by "\n". */
  function Render(lines: seq<string>): (text: string)
    ensures |text| >= |lines|
    ensures |lines| > 0 ==> text[|text| - 1] == '\n'
  {
    if |lines| == 0 then "" else lines[0] + "\n" + Render(lines[1..])
  }

  lemma {:induction false} RenderAppend(lines: seq<string>, line: string)
    ensures Render(lines + [line]) == Render(lines) + line + "\n"
    decreases |lines|
  {
    if |lines| > 0 {
      assert (lines + [line])[1..] == lines[1..] + [line];
      RenderAppend(lines[1..], line);
    }
  }

  /** A line ended by "\n" is read as that line, and reading goes on after
      the break. */
  lemma ReadFirstLine(line: string, rest: string)
    requires NoLineBreak(line)
    ensures ReadLines(line + "\n" + rest) == [line] + ReadLines(rest)
  {
    var s := line + "\n" + rest;
    assert s[|line|] == '\n';
    assert forall j :: 0 <= j < |line| ==> s[j] == line[j];
    assert LineEnd(s) == |line|;
    assert s[..|line|] == line;
    assert s[|line| + 1..] == rest;
  }

  /** A line ended by "\r\n" is read as that line; the "\n" belongs to the
      break, not to the next line. */
  lemma ReadCrLfLine(line: string, rest: string)
    requires NoLineBreak(line)
    ensures ReadLines(line + "\r\n" + rest) == [line] + ReadLines(rest)
  {
    var s := line + "\r\n" + rest;
    assert s[|line|] == '\r' && s[|line| + 1] == '\n';
    assert forall j :: 0 <= j < |line| ==> s[j] == line[j];
    assert LineEnd(s) == |line|;
    assert s[..|line|] == line;
    assert s[|line| + 2..] == rest;
  }

  /** A line ended by a lone "\r" is read as that line. */
  lemma ReadCrLine(line: string, rest: string)
    requires NoLineBreak(line)
    requires |rest| == 0 || rest[0] != '\n'
    ensures ReadLines(line + "\r" + rest) == [line] + ReadLines(rest)
  {
    var s := line + "\r" + rest;
    assert s[|line|] == '\r';
    assert |rest| > 0 ==> s[|line| + 1] == rest[0];
    assert forall j :: 0 <= j < |line| ==> s[j] == line[j];
    assert LineEnd(s) == |line|;
    assert s[..|line|] == line;
    assert s[|line| + 1..] == rest;
  }

  /** Text after the last break is a line of its own, though no break ends it. */
  lemma ReadLastLine(line: string)
    requires NoLineBreak(line) && |line| > 0
    ensures ReadLines(line) == [line]
  {
    assert LineEnd(line) == |line|;
  }

  /** Reading back what was written gives the same lines. */
  lemma {:induction false} ReadRender(lines: seq<string>)
    requires forall k :: 0 <= k < |lines| ==> NoLineBreak(lines[k])
    ensures ReadLines(Render(lines)) == lines
    decreases |lines|
  {
    if |lines| > 0 {
      var s := Render(lines);
      var rest := Render(lines[1..]);
      assert NoLineBreak(lines[0]);
      ReadFirstLine(lines[0], rest);
      assert s == lines[0] + "\n" + rest;
      ReadRender(lines[1..]);
    }
  }

  /** `lines` with the first line equal to `target` replaced by
      `replacement`. */
  function ReplaceFirst(lines: seq<string>, target: string, replacement: string): (r: seq<string>)
    ensures |r| == |lines|
  {
    if |lines| == 0 then []
    else if lines[0] == target then [replacement] + lines[1..]
    else [lines[0]] + ReplaceFirst(lines[1..], target, replacement)
  }

  /** Line `i` of the result: the replacement when it is the first line
      equal to `target`, the line itself otherwise. */
  lemma {:induction false} ReplaceFirstAt(lines: seq<string>, target: string, replacement: string, i: nat)
    requires i < |lines|
    ensures ReplaceFirst(lines, target, replacement)[i]
            == (if lines[i] == target && target !in lines[..i] then replacement else lines[i])
    decreases i
  {
    if lines[0] == target {
      if i > 0 {
        assert lines[..i][0] == target;
      }
    } else if i > 0 {
      ReplaceFirstAt(lines[1..], target, replacement, i - 1);
      assert lines[..i] == [lines[0]] + lines[1..][..i - 1];
    }
  }

  /** Only the first line equal to `target` is replaced; every other line,
      including later copies of `target`, is kept. */
  lemma ReplaceFirstReplacesOnlyFirst(lines: seq<string>, target: string, replacement: string)
    ensures var r := ReplaceFirst(lines, target, replacement);
            forall i :: 0 <= i < |lines| ==>
              r[i] == (if lines[i] == target && target !in lines[..i] then replacement else lines[i])
  {
    forall i | 0 <= i < |lines|
      ensures ReplaceFirst(lines, target, replacement)[i]
              == (if lines[i] == target && target !in lines[..i] then replacement else lines[i])
    {
      ReplaceFirstAt(lines, target, replacement, i);
    }
  }

  lemma {:induction false} ReplaceFirstAppend(lines: seq<string>, line: string, target: string, replacement: string)
    ensures ReplaceFirst(lines + [line], target, replacement)
            == ReplaceFirst(lines, target, replacement)
               + [if line == target && target !in lines then replacement else line]
    decreases |lines|
  {
    var ls := lines + [line];
    if |lines| == 0 {
      assert ls == [line];
    } else if lines[0] == target {
      assert ls[1..] == lines[1..] + [line];
    } else {
      assert ls[1..] == lines[1..] + [line];
      ReplaceFirstAppend(lines[1..], line, target, replacement);
      assert target in lines <==> target in lines[1..] by {
        assert lines == [lines[0]] + lines[1..];
      }
    }
  }

  /** One more line of input adds one line of output: the replacement for
      the first line equal to `target`, the line itself otherwise. */
  lemma RewriteStep(done: seq<string>, line: string, target: string, replacement: string)
    ensures Render(ReplaceFirst(done + [line], target, replacement))
            == Render(ReplaceFirst(done, target, replacement))
               + (if line == target && target !in done then replacement else line) + "\n"
  {
    ReplaceFirstAppend(done, line, target, replacement);
    RenderAppend(ReplaceFirst(done, target, replacement),
                 if line == target && target !in done then replacement else line);
  }

  /** One turn of the copy loop keeps its two invariants. */
  lemma RewriteLoopStep(lines: seq<string>, i: nat, target: string, replacement: string,
                        output: string, updateVersion: bool)
    requires i < |lines|
    requires updateVersion <==> target !in lines[..i]
    requires output == Render(ReplaceFirst(lines[..i], target, replacement))
    ensures (updateVersion && target != lines[i]) <==> target !in lines[..i + 1]
    ensures output + (if updateVersion && target == lines[i] then replacement else lines[i]) + "\n"
            == Render(ReplaceFirst(lines[..i + 1], target, replacement))
  {
    assert lines[..i + 1] == lines[..i] + [lines[i]];
    RewriteStep(lines[..i], lines[i], target, replacement);
  }

  lemma BumpedVersionLineHasNoBreak(version: string)
    requires forall i :: 0 <= i < |version| ==> IsDigit(version[i]) || version[i] in "-."
    ensures NoLineBreak(VersionLine(version))
  {
  }

  lemma ReplaceFirstKeepsNoBreak(lines: seq<string>, target: string, replacement: string)
    requires forall k :: 0 <= k < |lines| ==> NoLineBreak(lines[k])
    requires NoLineBreak(replacement)
    ensures forall k :: 0 <= k < |lines| ==> NoLineBreak(ReplaceFirst(lines, target, replacement)[k])
  {
    ReplaceFirstReplacesOnlyFirst(lines, target, replacement);
  }

  /** The copy loop: writes every line followed by "\n", the first line
      equal to `target` written as `replacement` instead; `replaced` tells
      whether such a line was met. */
  method RewriteLines(lines: seq<string>, target: string, replacement: string)
    returns (output: string, replaced: bool)
    ensures replaced <==> target in lines
    ensures output == Render(ReplaceFirst(lines, target, replacement))
  {
    var updateVersion := true;
    output := "";
    var i := 0;
    while i < |lines|
      invariant 0 <= i <= |lines|
      invariant updateVersion <==> target !in lines[..i]
      invariant output == Render(ReplaceFirst(lines[..i], target, replacement))
    {
      var line := lines[i];
      var next := if updateVersion && target == line then replacement else line;
      RewriteLoopStep(lines, i, target, replacement, output, updateVersion);
      output := output + next + "\n";
      updateVersion := updateVersion && target != line;
      i := i + 1;
    }
    assert lines[..i] == lines;
    replaced := !updateVersion;
  }

  /** Rewrites the build file `content` for the next development iteration
      of `currentVersion`: the version is bumped first, then the file is
      copied with its first current-version line replaced. */
  method UpdateBuildFile(content: string, currentVersion: string) returns (r: Result<string, DevIterError>)
    ensures BumpVersion(currentVersion).Failure? ==> r == Failure(VersionNotParsed(currentVersion))
    ensures BumpVersion(currentVersion).Success? && VersionLine(currentVersion) !in ReadLines(content)
            ==> r == Failure(VersionLineNotFound(VersionLine(currentVersion)))
    ensures BumpVersion(currentVersion).Success? && VersionLine(currentVersion) in ReadLines(content)
            ==> r == Success(Render(ReplaceFirst(ReadLines(content), VersionLine(currentVersion),
                                                 VersionLine(BumpVersion(currentVersion).value))))
    ensures r.Success? ==>
              ReadLines(r.value) == ReplaceFirst(ReadLines(content), VersionLine(currentVersion),
                                                 VersionLine(BumpVersion(currentVersion).value))
  {
    var currentVersionLine := VersionLine(currentVersion);
    var bumped := BumpVersion(currentVersion);
    if bumped.Failure? {
      return Failure(bumped.error);
    }
    var newVersionLine := VersionLine(bumped.value);
    var lines := ReadLines(content);
    var output, replaced := RewriteLines(lines, currentVersionLine, newVersionLine);
    if !replaced {
      return Failure(VersionLineNotFound(currentVersionLine));
    }
    BumpedVersionLineHasNoBreak(bumped.value);
    ReplaceFirstKeepsNoBreak(lines, currentVersionLine, newVersionLine);
    ReadRender(ReplaceFirst(lines, currentVersionLine, newVersionLine));
    return Success(output);
  }
}

=== FILE: release_state.dfy ===
/** The release state of the last commit: for each tracked add-on project,
    the version and release flag of its properties file at the head commit
    and at the commit it is compared with. Repository access is abstracted:
    the commit graph, the commit walk order, the trees, the parsed file
    contents and the diffs are given as data. */
module ReleaseStateLastCommit {
  import opened Results
  import opened JavaLang

  type CommitId = string
  type ObjectId = string
  type FilePath = string

  /** A parsed `.properties` file. */
  type Properties = map<string, string>

  const VERSION_PROPERTY: string := "version"
  const RELEASE_PROPERTY: string := "release"

  /** How many commits each side of a merge is walked back to find a common
      ancestor. */
  const ANCESTOR_WALK_LIMIT: int := 50

  datatype ChangeType = ADD | MODIFY | DELETE | RENAME | COPY

  /** One entry of a diff between an old and a new commit. */
  datatype DiffEntry = DiffEntry(
    changeType: ChangeType,
    oldPath: FilePath,
    newPath: FilePath,
    oldId: ObjectId,
    newId: ObjectId)

  /** What `generate` reads from the Git repository. */
  datatype Repository = Repository(
    head: Option<CommitId>,                              // the commit `HEAD` refers to, if any
    parents: map<CommitId, seq<CommitId>>,               // stored commits and their parents, in order
    walks: map<CommitId, seq<CommitId>>,                 // the commits a walk from each commit visits, in order
    trees: map<CommitId, map<FilePath, ObjectId>>,       // the files of each commit
    blobs: map<ObjectId, Properties>,                    // the readable file contents, parsed
    diffs: map<(CommitId, CommitId), seq<DiffEntry>>)    // the diff from an old to a new commit

  datatype ProjectInfo = ProjectInfo(name: string, propertiesPath: FilePath, outputFile: FilePath)

  /** `getProperty` gives `null` for a missing key, hence the options. */
  datatype ReleaseState = ReleaseState(
    previousVersion: Option<string>,
    currentVersion: Option<string>,
    previousRelease: bool,
    currentRelease: bool)

  datatype GitError =
    | HeadNotFound                                  // no ref HEAD
    | RepositoryError(commit: CommitId)             // the head commit cannot be read
    | FileNotFound(path: FilePath)                  // not in the current commit
    | FileReadError(id: ObjectId)                   // the file's object cannot be read
    | NoParent(commit: CommitId)                    // `getParent(0)` of a root commit
    | TraverseError(start: CommitId)                // a walk cannot start
    | CommonAncestorNotFound(a: CommitId, b: CommitId)
    | DiffError(oldCommit: CommitId, newCommit: CommitId)

  predicate Distinct<T(==)>(s: seq<T>) {
    forall i, j :: 0 <= i < j < |s| ==> s[i] != s[j]
  }

  /** What a Git object store guarantees: each stored commit has a tree and a
      walk; a walk starts at its commit, stays in the store and visits each
      commit once; parents are stored. */
  predicate WellFormed(repo: Repository) {
    && repo.walks.Keys == repo.parents.Keys
    && repo.trees.Keys == repo.parents.Keys
    && (forall c :: c in repo.parents ==> forall p :: p in repo.parents[c] ==> p in repo.parents)
    && (forall c :: c in repo.walks ==>
          && |repo.walks[c]| > 0
          && repo.walks[c][0] == c
          && Distinct(repo.walks[c])
          && forall x :: x in repo.walks[c] ==> x in repo.parents)
  }

  // ---------------------------------------------------------------------
  // Walking back from a commit

  /** The commits a walk collects before it stops: it takes each commit in
      turn and stops once it holds `count` of them (after the first one at
      the least) or the walk ends. */
  function BoundedWalk(order: seq<CommitId>, count: int): (r: seq<CommitId>)
    ensures r <= order
    ensures |r| == |order| || |r| >= count
    ensures |r| <= count || |r| <= 1
    ensures |order| > 0 ==> |r| > 0
  {
    var n := if count < 1 then 1 else count;
    if |order| <= n then order else order[..n]
  }

  /** The collecting loop of a walk, as written: add each commit, then stop
      when the list holds at least `count`. */
  method CollectWalk(order: seq<CommitId>, count: int) returns (commits: seq<CommitId>)
    ensures commits == BoundedWalk(order, count)
  {
    commits := [];
    var i := 0;
    while i < |order|
      invariant 0 <= i <= |order|
      invariant commits == order[..i]
      invariant 0 < i ==> i < count
    {
      commits := commits + [order[i]];
      i := i + 1;
      if |commits| >= count {
        break;
      }
    }
  }

  /** `walkTree`: the first `count` commits of the walk from `start`. */
  function WalkTree(repo: Repository, start: CommitId, count: int): (r: Result<seq<CommitId>, GitError>)
    ensures start !in repo.walks <==> r == Failure(TraverseError(start))
    ensures r.Success? ==> r.value == BoundedWalk(repo.walks[start], count)
  {
    if start !in repo.walks then Failure(TraverseError(start))
    else Success(BoundedWalk(repo.walks[start], count))
  }

  /** The commits of a list, as the `HashSet` built from it holds them. */
  function Elements(commits: seq<CommitId>): (e: set<CommitId>)
    ensures forall c :: c in e <==> c in commits
  {
    set c | c in commits
  }

  predicate IsFirstRepeat(seen: set<CommitId>, candidates: seq<CommitId>, k: int)
    requires 0 <= k < |candidates|
  {
    && (candidates[k] in seen || candidates[k] in candidates[..k])
    && forall j :: 0 <= j < k ==> candidates[j] !in seen && candidates[j] !in candidates[..j]
  }

  /** The search loop of `getCommonAncestor`: every candidate is added to the
      set `seen`, and the first one already there is the answer. */
  function FirstAlreadySeen(seen: set<CommitId>, candidates: seq<CommitId>): (r: Option<CommitId>)
    ensures r.None? <==> forall k :: 0 <= k < |candidates| ==>
                           candidates[k] !in seen && candidates[k] !in candidates[..k]
    ensures r.Some? ==> exists k :: 0 <= k < |candidates| && candidates[k] == r.value
                                    && IsFirstRepeat(seen, candidates, k)
    decreases |candidates|
  {
    if |candidates| == 0 then None
    else if candidates[0] in seen then
      assert IsFirstRepeat(seen, candidates, 0);
      Some(candidates[0])
    else
      var rest := candidates[1..];
      var seen' := seen + {candidates[0]};
      var r := FirstAlreadySeen(seen', rest);
      assert forall k :: 1 <= k < |candidates| ==> candidates[..k] == [candidates[0]] + rest[..k - 1];
      assert r.Some? ==> forall k :: 0 <= k < |rest| && IsFirstRepeat(seen', rest, k) ==>
                           IsFirstRepeat(seen, candidates, k + 1);
      r
  }

  /** The same search as a loop over a mutable set, as `getCommonAncestor` writes it. */
  method FindFirstAlreadySeen(treeA: seq<CommitId>, treeB: seq<CommitId>) returns (r: Option<CommitId>)
    ensures r == FirstAlreadySeen(Elements(treeA), treeB)
  {
    var common := Elements(treeA);
    var i := 0;
    while i < |treeB|
      invariant 0 <= i <= |treeB|
      invariant FirstAlreadySeen(common, treeB[i..]) == FirstAlreadySeen(Elements(treeA), treeB)
    {
      var commit := treeB[i];
      assert treeB[i..][1..] == treeB[i + 1..];
      if commit in common {
        return Some(commit);
      }
      common := common + {commit};
      i := i + 1;
    }
    return None;
  }

  /** `getCommonAncestor`: walks back at most 50 commits from each of `a`
      and `b`, and answers the first commit of `b`'s walk already met. */
  function GetCommonAncestor(repo: Repository, a: CommitId, b: CommitId): (r: Result<CommitId, GitError>)
    ensures a !in repo.walks ==> r == Failure(TraverseError(a))
    ensures a in repo.walks && b !in repo.walks ==> r == Failure(TraverseError(b))
    ensures r.Success? ==> r.value in BoundedWalk(repo.walks[b], ANCESTOR_WALK_LIMIT)
  {
    var treeA :- WalkTree(repo, a, ANCESTOR_WALK_LIMIT);
    var treeB :- WalkTree(repo, b, ANCESTOR_WALK_LIMIT);
    match FirstAlreadySeen(Elements(treeA), treeB)
    case Some(c) => Success(c)
    case None => Failure(CommonAncestorNotFound(a, b))
  }

  lemma PrefixOfDistinct(s: seq<CommitId>, t: seq<CommitId>)
    requires t <= s && Distinct(s)
    ensures Distinct(t)
  {
    assert forall i :: 0 <= i < |t| ==> t[i] == s[i];
  }

  /** On a well-formed repository the common ancestor is a commit of both
      bounded walks, the earliest of `b`'s walk that `a`'s walk contains;
      the search fails exactly when the two bounded walks share nothing. */
  lemma CommonAncestorIsFirstShared(repo: Repository, a: CommitId, b: CommitId)
    requires WellFormed(repo) && a in repo.walks && b in repo.walks
    ensures var treeA := BoundedWalk(repo.walks[a], ANCESTOR_WALK_LIMIT);
            var treeB := BoundedWalk(repo.walks[b], ANCESTOR_WALK_LIMIT);
            var r := GetCommonAncestor(repo, a, b);
            && (r.Success? ==> r.value in treeA && r.value in treeB
                               && exists k :: 0 <= k < |treeB| && treeB[k] == r.value
                                              && forall j :: 0 <= j < k ==> treeB[j] !in treeA)
            && (r.Failure? <==> forall k :: 0 <= k < |treeB| ==> treeB[k] !in treeA)
            && (r.Failure? ==> r.error == CommonAncestorNotFound(a, b))
  {
    var treeA := BoundedWalk(repo.walks[a], ANCESTOR_WALK_LIMIT);
    var treeB := BoundedWalk(repo.walks[b], ANCESTOR_WALK_LIMIT);
    PrefixOfDistinct(repo.walks[b], treeB);
    assert forall k :: 0 <= k < |treeB| ==> treeB[k] !in treeB[..k];
  }

  /** A commit both bounded walks reach guarantees that an ancestor is found,
      no later in `b`'s walk than that commit. */
  lemma SharedCommitWithinBoundIsFound(repo: Repository, a: CommitId, b: CommitId, x: CommitId)
    requires WellFormed(repo) && a in repo.walks && b in repo.walks
    requires x in BoundedWalk(repo.walks[a], ANCESTOR_WALK_LIMIT)
    requires x in BoundedWalk(repo.walks[b], ANCESTOR_WALK_LIMIT)
    ensures GetCommonAncestor(repo, a, b).Success?
    ensures var treeB := BoundedWalk(repo.walks[b], ANCESTOR_WALK_LIMIT);
            forall i, j :: (0 <= i < |treeB| && 0 <= j < |treeB|
                            && treeB[i] == GetCommonAncestor(repo, a, b).value && treeB[j] == x) ==> i <= j
  {
    CommonAncestorIsFirstShared(repo, a, b);
    var treeB := BoundedWalk(repo.walks[b], ANCESTOR_WALK_LIMIT);
    PrefixOfDistinct(repo.walks[b], treeB);
  }

  // ---------------------------------------------------------------------
  // Choosing the commit to compare with

  predicate IsMergeCommit(parents: seq<CommitId>) {
    |parents| > 1
  }

  /** The commit the head is compared with: the common ancestor of the first
      two parents of a merge, the first parent otherwise. */
  function PreviousCommit(repo: Repository, head: CommitId): (r: Result<CommitId, GitError>)
    requires head in repo.parents
    ensures |repo.parents[head]| == 0 ==> r == Failure(NoParent(head))
    ensures |repo.parents[head]| == 1 ==> r == Success(repo.parents[head][0])
    ensures |repo.parents[head]| > 1 ==>
              r == GetCommonAncestor(repo, repo.parents[head][0], repo.parents[head][1])
  {
    var parents := repo.parents[head];
    if IsMergeCommit(parents) then GetCommonAncestor(repo, parents[0], parents[1])
    else if |parents| == 0 then Failure(NoParent(head))
    else Success(parents[0])
  }

  /** On a well-formed repository, a merge is compared with a commit that
      both of its first two parents reach within the walk bound. */
  lemma MergeComparesWithSharedAncestor(repo: Repository, head: CommitId)
    requires WellFormed(repo) && head in repo.parents && IsMergeCommit(repo.parents[head])
    requires PreviousCommit(repo, head).Success?
    ensures var parents := repo.parents[head];
            && PreviousCommit(repo, head).value in BoundedWalk(repo.walks[parents[0]], ANCESTOR_WALK_LIMIT)
            && PreviousCommit(repo, head).value in BoundedWalk(repo.walks[parents[1]], ANCESTOR_WALK_LIMIT)
  {
    var parents := repo.parents[head];
    assert parents[0] in parents && parents[1] in parents;
    CommonAncestorIsFirstShared(repo, parents[0], parents[1]);
  }

  // ---------------------------------------------------------------------
  // Reading the properties

  predicate IsModificationOf(e: DiffEntry, path: FilePath) {
    e.changeType == MODIFY && e.newPath == path
  }

  /** The first `MODIFY` entry whose new path is `path`. */
  function FirstModification(diff: seq<DiffEntry>, path: FilePath): (r: Option<DiffEntry>)
    ensures r.None? <==> forall k :: 0 <= k < |diff| ==> !IsModificationOf(diff[k], path)
    ensures r.Some? ==> exists k :: 0 <= k < |diff| && diff[k] == r.value && IsModificationOf(diff[k], path)
                                    && forall j :: 0 <= j < k ==> !IsModificationOf(diff[j], path)
  {
    if |diff| == 0 then None
    else if IsModificationOf(diff[0], path) then Some(diff[0])
    else
      var r := FirstModification(diff[1..], path);
      assert forall k :: 1 <= k < |diff| ==> diff[k] == diff[1..][k - 1];
      r
  }

  /** `isFileChanged`: the diff from `oldCommit` to `newCommit`, filtered to
      the modification of `path`. */
  function IsFileChanged(repo: Repository, oldCommit: CommitId, newCommit: CommitId, path: FilePath)
    : (r: Result<Option<DiffEntry>, GitError>)
    ensures r.Failure? <==> oldCommit !in repo.parents || newCommit !in repo.parents
                            || (oldCommit, newCommit) !in repo.diffs
    ensures r.Failure? ==> r.error == DiffError(oldCommit, newCommit)
    ensures r.Success? && r.value.Some? ==> r.value.value in repo.diffs[(oldCommit, newCommit)]
                                            && IsModificationOf(r.value.value, path)
    ensures r.Success? ==> r.value == FirstModification(repo.diffs[(oldCommit, newCommit)], path)
  {
    if oldCommit !in repo.parents || newCommit !in repo.parents
       || (oldCommit, newCommit) !in repo.diffs
    then Failure(DiffError(oldCommit, newCommit))
    else Success(FirstModification(repo.diffs[(oldCommit, newCommit)], path))
  }

  /** `createProperties`: the parsed content of a stored file. */
  function CreateProperties(repo: Repository, id: ObjectId): (r: Result<Properties, GitError>)
    ensures id in repo.blobs ==> r == Success(repo.blobs[id])
    ensures id !in repo.blobs <==> r == Failure(FileReadError(id))
  {
    if id in repo.blobs then Success(repo.blobs[id]) else Failure(FileReadError(id))
  }

  /** The head commit can be read and its tree holds a stored object for `path`. */
  predicate CurrentReadable(repo: Repository, head: CommitId, path: FilePath) {
    && head in repo.parents && head in repo.trees && path in repo.trees[head]
    && repo.trees[head][path] in repo.blobs
  }

  /** `readProperties`: the (previous, current) properties of `path` for the
      commit `head`. The current ones must exist; the previous ones are those
      before the modification of `path` between the compared commit and the
      head, and the current ones when there is none. */
  function ReadProperties(repo: Repository, head: CommitId, path: FilePath)
    : (r: Result<(Properties, Properties), GitError>)
    ensures head !in repo.parents || head !in repo.trees ==> r == Failure(RepositoryError(head))
    ensures head in repo.parents && head in repo.trees && path !in repo.trees[head]
            ==> r == Failure(FileNotFound(path))
    ensures r.Success? ==> head in repo.trees && path in repo.trees[head]
                           && repo.trees[head][path] in repo.blobs
                           && r.value.1 == repo.blobs[repo.trees[head][path]]
    ensures r.Success? ==>
              && head in repo.parents && PreviousCommit(repo, head).Success?
              && (PreviousCommit(repo, head).value, head) in repo.diffs
              && var m := FirstModification(repo.diffs[(PreviousCommit(repo, head).value, head)], path);
                 && (m.None? ==> r.value.0 == r.value.1)
                 && (m.Some? ==> m.value.oldId in repo.blobs && r.value.0 == repo.blobs[m.value.oldId])
    ensures head in repo.parents && head in repo.trees && path in repo.trees[head]
            && repo.trees[head][path] !in repo.blobs
            ==> r == Failure(FileReadError(repo.trees[head][path]))
    ensures head in repo.parents && head in repo.trees && path in repo.trees[head]
            && repo.trees[head][path] in repo.blobs && PreviousCommit(repo, head).Success?
            && PreviousCommit(repo, head).value in repo.parents
            && (PreviousCommit(repo, head).value, head) in repo.diffs
            && (var m := FirstModification(repo.diffs[(PreviousCommit(repo, head).value, head)], path);
                m.Some? ==> m.value.oldId in repo.blobs)
            ==> r.Success?
    ensures CurrentReadable(repo, head, path) && PreviousCommit(repo, head).Failure?
            ==> r == Failure(PreviousCommit(repo, head).error)
    ensures CurrentReadable(repo, head, path) && PreviousCommit(repo, head).Success?
            && (PreviousCommit(repo, head).value !in repo.parents
                || (PreviousCommit(repo, head).value, head) !in repo.diffs)
            ==> r == Failure(DiffError(PreviousCommit(repo, head).value, head))
    ensures CurrentReadable(repo, head, path) && PreviousCommit(repo, head).Success?
            && PreviousCommit(repo, head).value in repo.parents
            && (PreviousCommit(repo, head).value, head) in repo.diffs
            ==> var m := FirstModification(repo.diffs[(PreviousCommit(repo, head).value, head)], path);
                m.Some? && m.value.oldId !in repo.blobs ==> r == Failure(FileReadError(m.value.oldId))
  {
    if head !in repo.parents || head !in repo.trees then Failure(RepositoryError(head))
    else if path !in repo.trees[head] then Failure(FileNotFound(path))
    else
      var current :- CreateProperties(repo, repo.trees[head][path]);
      var parent :- PreviousCommit(repo, head);
      var changed :- IsFileChanged(repo, parent, head, path);
      var previous :- if changed.Some? then CreateProperties(repo, changed.value.oldId) else Success(current);
      Success((previous, current))
  }

  /** The release state from the previous and current properties. */
  function Assemble(previous: Properties, current: Properties): (s: ReleaseState)
    ensures s.previousRelease <==> RELEASE_PROPERTY in previous && ParseBoolean(Some(previous[RELEASE_PROPERTY]))
    ensures s.currentRelease <==> RELEASE_PROPERTY in current && ParseBoolean(Some(current[RELEASE_PROPERTY]))
    ensures s.previousVersion.Some? <==> VERSION_PROPERTY in previous
    ensures s.currentVersion.Some? <==> VERSION_PROPERTY in current
    ensures s.previousVersion.Some? ==> s.previousVersion.value == previous[VERSION_PROPERTY]
    ensures s.currentVersion.Some? ==> s.currentVersion.value == current[VERSION_PROPERTY]
  {
    ReleaseState(
      GetProperty(previous, VERSION_PROPERTY),
      GetProperty(current, VERSION_PROPERTY),
      ParseBoolean(GetProperty(previous, RELEASE_PROPERTY)),
      ParseBoolean(GetProperty(current, RELEASE_PROPERTY)))
  }

  /** The release state of one project's properties file at `head`. */
  function ResolveReleaseState(repo: Repository, head: CommitId, path: FilePath)
    : (r: Result<ReleaseState, GitError>)
    ensures r.Failure? <==> ReadProperties(repo, head, path).Failure?
    ensures r.Failure? ==> r.error == ReadProperties(repo, head, path).error
    ensures r.Success? ==>
              && head in repo.trees && path in repo.trees[head] && repo.trees[head][path] in repo.blobs
              && var current := repo.blobs[repo.trees[head][path]];
                 && r.value.currentVersion == GetProperty(current, VERSION_PROPERTY)
                 && r.value.currentRelease == ParseBoolean(GetProperty(current, RELEASE_PROPERTY))
  {
    var props :- ReadProperties(repo, head, path);
    Success(Assemble(props.0, props.1))
  }

  /** A missing properties file at the head is an error, never a default. */
  lemma MissingFileFails(repo: Repository, head: CommitId, path: FilePath)
    requires head in repo.parents && head in repo.trees && path !in repo.trees[head]
    ensures ResolveReleaseState(repo, head, path) == Failure(FileNotFound(path))
  {
  }

  /** A merge whose first two parents share no commit within the walk bound
      is not resolved: the run fails with "common ancestor not found". */
  lemma NoCommonAncestorFails(repo: Repository, head: CommitId, path: FilePath)
    requires WellFormed(repo) && CurrentReadable(repo, head, path)
    requires IsMergeCommit(repo.parents[head])
    requires var parents := repo.parents[head];
             forall x :: x in BoundedWalk(repo.walks[parents[1]], ANCESTOR_WALK_LIMIT)
                         ==> x !in BoundedWalk(repo.walks[parents[0]], ANCESTOR_WALK_LIMIT)
    ensures var parents := repo.parents[head];
            ResolveReleaseState(repo, head, path) == Failure(CommonAncestorNotFound(parents[0], parents[1]))
  {
    var parents := repo.parents[head];
    assert parents[0] in parents && parents[1] in parents;
    CommonAncestorIsFirstShared(repo, parents[0], parents[1]);
  }

  /** A root head, which has no parent, is not resolved: the run fails with
      `NoParent` where `getParent(0)` would throw. */
  lemma RootHeadFails(repo: Repository, head: CommitId, path: FilePath)
    requires CurrentReadable(repo, head, path) && |repo.parents[head]| == 0
    ensures ResolveReleaseState(repo, head, path) == Failure(NoParent(head))
  {
  }

  /** Without a modification of the file between the compared commit and the
      head, the previous state is the current one. */
  lemma UnmodifiedFileGivesSameState(repo: Repository, head: CommitId, path: FilePath)
    requires ResolveReleaseState(repo, head, path).Success?
    requires var parent := PreviousCommit(repo, head).value;
             forall k :: 0 <= k < |repo.diffs[(parent, head)]| ==>
               !IsModificationOf(repo.diffs[(parent, head)][k], path)
    ensures var s := ResolveReleaseState(repo, head, path).value;
            s.previousVersion == s.currentVersion && s.previousRelease == s.currentRelease
  {
  }

  /** With a modification of the file, the previous state is read from the
      old side of the first such diff entry, not from the head. */
  lemma ModifiedFileGivesPredecessorState(repo: Repository, head: CommitId, path: FilePath, k: nat)
    requires ResolveReleaseState(repo, head, path).Success?
    requires var diff := repo.diffs[(PreviousCommit(repo, head).value, head)];
             && k < |diff| && IsModificationOf(diff[k], path)
             && forall j :: 0 <= j < k ==> !IsModificationOf(diff[j], path)
    ensures var diff := repo.diffs[(PreviousCommit(repo, head).value, head)];
            var s := ResolveReleaseState(repo, head, path).value;
            && diff[k].oldId in repo.blobs
            && s.previousVersion == GetProperty(repo.blobs[diff[k].oldId], VERSION_PROPERTY)
            && s.previousRelease == ParseBoolean(GetProperty(repo.blobs[diff[k].oldId], RELEASE_PROPERTY))
  {
  }

  /** Linear history A, B, C: the file is unchanged from A to B and bumped
      to a release at C. */
  function LinearHistory(): Repository {
    Repository(
      Some("C"),
      map["A" := [], "B" := ["A"], "C" := ["B"]],
      map["A" := ["A"], "B" := ["B", "A"], "C" := ["C", "B", "A"]],
      map["A" := map["app.properties" := "x1"], "B" := map["app.properties" := "x1"],
          "C" := map["app.properties" := "x2"]],
      map["x1" := map["version" := "1.0", "release" := "false"],
          "x2" := map["version" := "1.1", "release" := "True"]],
      map[("B", "C") := [DiffEntry(MODIFY, "app.properties", "app.properties", "x1", "x2")]])
  }

  /** The state at C compares C with its parent B. */
  lemma LinearHistoryExample()
    ensures ResolveReleaseState(LinearHistory(), "C", "app.properties")
            == Success(ReleaseState(Some("1.0"), Some("1.1"), false, true))
  {
    var repo := LinearHistory();
    assert PreviousCommit(repo, "C") == Success("B");
    var diff := repo.diffs[("B", "C")];
    assert IsFileChanged(repo, "B", "C", "app.properties") == Success(Some(diff[0]));
    assert ReadProperties(repo, "C", "app.properties") == Success((repo.blobs["x1"], repo.blobs["x2"]));
    assert ParseBoolean(Some("True")) && !ParseBoolean(Some("false"));
    assert Assemble(repo.blobs["x1"], repo.blobs["x2"]) == ReleaseState(Some("1.0"), Some("1.1"), false, true);
  }

  /** A merge M of the branches P1 and P2, which fork at A; besides the
      properties change, the diff from A to M adds an unrelated file. */
  function MergeHistory(): Repository {
    Repository(
      Some("M"),
      map["A" := [], "P1" := ["A"], "P2" := ["A"], "M" := ["P1", "P2"]],
      map["A" := ["A"], "P1" := ["P1", "A"], "P2" := ["P2", "A"], "M" := ["M", "P1", "P2", "A"]],
      map["A" := map["app.properties" := "x1"], "P1" := map["app.properties" := "x1"],
          "P2" := map["app.properties" := "x1"], "M" := map["app.properties" := "x2"]],
      map["x1" := map["version" := "2.0"], "x2" := map["version" := "2.1", "release" := "true"]],
      map[("A", "M") := [DiffEntry(ADD, "", "NOTES", "", "x3"),
                         DiffEntry(MODIFY, "app.properties", "app.properties", "x1", "x2")]])
  }

  /** The merge is compared with the common ancestor A, not with either
      parent. */
  lemma MergeExampleAncestor()
    ensures PreviousCommit(MergeHistory(), "M") == Success("A")
  {
    var repo := MergeHistory();
    assert BoundedWalk(repo.walks["P1"], ANCESTOR_WALK_LIMIT) == ["P1", "A"];
    assert BoundedWalk(repo.walks["P2"], ANCESTOR_WALK_LIMIT) == ["P2", "A"];
    assert Elements(["P1", "A"]) == {"P1", "A"};
    assert FirstAlreadySeen({"P1", "A"}, ["P2", "A"]) == Some("A");
  }

  /** The diff from A to M: the added file is skipped and the second entry
      is the modification of the properties file. */
  lemma MergeExampleDiff()
    ensures IsFileChanged(MergeHistory(), "A", "M", "app.properties")
            == Success(Some(MergeHistory().diffs[("A", "M")][1]))
  {
    var diff := MergeHistory().diffs[("A", "M")];
    assert !IsModificationOf(diff[0], "app.properties");
    assert FirstModification(diff, "app.properties") == Some(diff[1]);
  }

  /** The merge's previous state is that of the common ancestor. */
  lemma MergeExample()
    ensures ResolveReleaseState(MergeHistory(), "M", "app.properties")
            == Success(ReleaseState(Some("2.0"), Some("2.1"), false, true))
  {
    var repo := MergeHistory();
    MergeExampleAncestor();
    MergeExampleDiff();
    var previous := repo.blobs["x1"];
    var current := repo.blobs["x2"];
    assert ReadProperties(repo, "M", "app.properties") == Success((previous, current));
    assert Assemble(previous, current) == ReleaseState(Some("2.0"), Some("2.1"), false, true);
  }

  // ---------------------------------------------------------------------
  // Generating the release states

  /** What a run leaves behind: the release states written, in order, and
      the error that stopped it, if any. */
  datatype Run = Run(written: seq<(FilePath, ReleaseState)>, failure: Option<GitError>)

  /** Processes the projects in order, each with the same `resolve` (the
      resolution against one head); the first failure stops the run, with
      the earlier files already written. */
  function GenerateEach(resolve: FilePath -> Result<ReleaseState, GitError>, projects: seq<ProjectInfo>)
    : (run: Run)
    ensures |run.written| <= |projects|
    ensures run.failure.None? <==> |run.written| == |projects|
  {
    if |projects| == 0 then Run([], None)
    else
      match resolve(projects[0].propertiesPath)
      case Failure(e) => Run([], Some(e))
      case Success(state) =>
        var rest := GenerateEach(resolve, projects[1..]);
        Run([(projects[0].outputFile, state)] + rest.written, rest.failure)
  }

  /** The `i`-th state written is that of the `i`-th project, to its output
      file. */
  lemma {:induction false} GenerateEachWrites(resolve: FilePath -> Result<ReleaseState, GitError>,
                                              projects: seq<ProjectInfo>, i: nat)
    requires i < |GenerateEach(resolve, projects).written|
    ensures var run := GenerateEach(resolve, projects);
            && run.written[i].0 == projects[i].outputFile
            && resolve(projects[i].propertiesPath) == Success(run.written[i].1)
    decreases i
  {
    if i > 0 {
      GenerateEachWrites(resolve, projects[1..], i - 1);
      assert projects[1..][i - 1] == projects[i];
    }
  }

  /** A run that stops does so at the first project that fails, with its
      error. */
  lemma {:induction false} GenerateEachStops(resolve: FilePath -> Result<ReleaseState, GitError>,
                                             projects: seq<ProjectInfo>)
    requires GenerateEach(resolve, projects).failure.Some?
    ensures var run := GenerateEach(resolve, projects);
            resolve(projects[|run.written|].propertiesPath) == Failure(run.failure.value)
    decreases |projects|
  {
    if resolve(projects[0].propertiesPath).Success? {
      GenerateEachStops(resolve, projects[1..]);
      assert projects[1..][|GenerateEach(resolve, projects[1..]).written|]
             == projects[|GenerateEach(resolve, projects).written|];
    }
  }

  /** `generate`: resolves `HEAD`, then the release state of every project
      against it. */
  function Generate(repo: Repository, projects: seq<ProjectInfo>): (run: Run)
    ensures |run.written| <= |projects|
    ensures repo.head.None? ==> run == Run([], Some(HeadNotFound))
    ensures repo.head.Some? ==> (run.failure.None? <==> |run.written| == |projects|)
    ensures repo.head.Some? ==> forall i :: 0 <= i < |run.written| ==>
              && run.written[i].0 == projects[i].outputFile
              && ResolveReleaseState(repo, repo.head.value, projects[i].propertiesPath) == Success(run.written[i].1)
    ensures repo.head.Some? && run.failure.Some? ==>
              ResolveReleaseState(repo, repo.head.value, projects[|run.written|].propertiesPath)
              == Failure(run.failure.value)
  {
    match repo.head
    case None => Run([], Some(HeadNotFound))
    case Some(head) =>
      var resolve := path => ResolveReleaseState(repo, head, path);
      var run := GenerateEach(resolve, projects);
      assert forall i :: 0 <= i < |run.written| ==>
               && run.written[i].0 == projects[i].outputFile
               && resolve(projects[i].propertiesPath) == Success(run.written[i].1) by {
        forall i | 0 <= i < |run.written|
          ensures && run.written[i].0 == projects[i].outputFile
                  && resolve(projects[i].propertiesPath) == Success(run.written[i].1)
        {
          GenerateEachWrites(resolve, projects, i);
        }
      }
      assert run.failure.Some? ==> resolve(projects[|run.written|].propertiesPath) == Failure(run.failure.value) by {
        if run.failure.Some? {
          GenerateEachStops(resolve, projects);
        }
      }
      run
  }

  /** Projects do not influence each other: a run over two lists, the first
      of which succeeds, writes what the two separate runs write. */
  lemma {:induction false} GenerateEachAppend(resolve: FilePath -> Result<ReleaseState, GitError>,
                                              first: seq<ProjectInfo>, second: seq<ProjectInfo>)
    requires GenerateEach(resolve, first).failure.None?
    ensures GenerateEach(resolve, first + second).written
            == GenerateEach(resolve, first).written + GenerateEach(resolve, second).written
    ensures GenerateEach(resolve, first + second).failure == GenerateEach(resolve, second).failure
    decreases |first|
  {
    if |first| == 0 {
      assert first + second == second;
    } else {
      var all := first + second;
      assert all[1..] == first[1..] + second;
      assert all[0] == first[0];
      var head := (first[0].outputFile, resolve(first[0].propertiesPath).value);
      var tail := GenerateEach(resolve, first[1..]);
      var allTail := GenerateEach(resolve, all[1..]);
      assert GenerateEach(resolve, first) == Run([head] + tail.written, tail.failure);
      assert GenerateEach(resolve, all) == Run([head] + allTail.written, allTail.failure);
      GenerateEachAppend(resolve, first[1..], second);
      assert [head] + tail.written + GenerateEach(resolve, second).written
             == [head] + (tail.written + GenerateEach(resolve, second).written);
    }
  }
}

=== FILE: results.dfy ===
/** Failure-compatible wrappers used by every module: `Option` for Java's
    nullable values and `Result` for operations that throw. */
module Results {

  /** A value that may be absent (a Java `null`). */
  datatype Option<+T> = None | Some(value: T)

  /** Either a computed value or the error the operation fails with. */
  datatype Result<+T, +E> = Success(value: T) | Failure(error: E) {

    predicate IsFailure() {
      Failure?
    }

    function PropagateFailure<U>(): Result<U, E>
      requires Failure?
    {
      Failure(error)
    }

    function Extract(): T
      requires Success?
    {
      value
    }
  }
}

=== FILE: semver.dfy ===
/** Plain `MAJOR.MINOR.PATCH` versions as defined by section 2 of Semantic
    Versioning 2.0.0 (non-negative integers without leading zeros), and the
    next-minor increment of section 7. */
module SemVer {
  import opened Results
  import opened Text

  datatype Version = Version(major: nat, minor: nat, patch: nat)

  /** `Version.parse` on a version core: exactly three dot-separated
      canonical numerals. */
  function Parse(s: string): (r: Option<Version>)
    ensures r.Some? <==> |Split(s, '.')| == 3
                         && forall k :: 0 <= k < 3 ==> IsCanonicalNumeral(Split(s, '.')[k])
    ensures r.Some? ==> DigitsAndSeparators(s, '.')
    ensures r.Some? ==> && r.value.major == DecimalValue(Split(s, '.')[0])
                        && r.value.minor == DecimalValue(Split(s, '.')[1])
                        && r.value.patch == DecimalValue(Split(s, '.')[2])
  {
    var parts := Split(s, '.');
    if |parts| == 3 && IsCanonicalNumeral(parts[0]) && IsCanonicalNumeral(parts[1])
       && IsCanonicalNumeral(parts[2])
    then
      JoinSplit(s, '.');
      JoinOfDigits(parts, '.');
      Some(Version(DecimalValue(parts[0]), DecimalValue(parts[1]), DecimalValue(parts[2])))
    else None
  }

  /** A major number with a leading zero ("01.2.3") is rejected. */
  lemma ParseRejectsLeadingZero(s: string)
    requires |s| >= 2 && s[0] == '0' && IsDigit(s[1])
    ensures Parse(s).None?
  {
    var i := IndexOf(s, '.');
    assert i >= 2;
    var major := Split(s, '.')[0];
    assert major == s[..i] || major == s;
    assert |major| >= 2 && major[0] == '0';
  }

  /** A missing component is rejected. */
  lemma ParseRejectsMissingPatch()
    ensures Parse("1.2").None?
  {
    SplitAtFirst("1.2", '.', 1);
    SplitWithoutSeparator("2", '.');
    assert "1.2"[2..] == "2";
  }

  /** A pre-release suffix is outside the version core: the "-" is neither
      a digit nor a dot. */
  lemma ParseRejectsPreRelease()
    ensures Parse("1.2.3-beta").None?
  {
    assert !DigitsAndSeparators("1.2.3-beta", '.') by {
      assert "1.2.3-beta"[5] == '-';
    }
  }

  /** `Version.toString` of a version without pre-release or build data. */
  function Format(v: Version): (s: string)
    ensures DigitsAndSeparators(s, '.')
    ensures Split(s, '.') == [NatToDecimal(v.major), NatToDecimal(v.minor), NatToDecimal(v.patch)]
  {
    var parts := [NatToDecimal(v.major), NatToDecimal(v.minor), NatToDecimal(v.patch)];
    JoinOfDigits(parts, '.');
    assert forall k :: 0 <= k < 3 ==> '.' !in parts[k] by {
      forall k | 0 <= k < 3 ensures '.' !in parts[k] {
        assert AllDigits(parts[k]);
      }
    }
    SplitJoin(parts, '.');
    Join(parts, '.')
  }

  /** `nextMinorVersion`: the minor number goes up by one and the patch
      number is reset to zero (section 7 of Semantic Versioning 2.0.0). */
  function NextMinor(v: Version): (r: Version)
    ensures r.major == v.major && r.minor == v.minor + 1 && r.patch == 0
  {
    Version(v.major, v.minor + 1, 0)
  }

  /** Every version is read back from its text. */
  lemma FormatParse(v: Version)
    ensures Parse(Format(v)) == Some(v)
  {
    var parts := [NatToDecimal(v.major), NatToDecimal(v.minor), NatToDecimal(v.patch)];
    forall k | 0 <= k < 3 ensures '.' !in parts[k] {
      assert AllDigits(parts[k]);
    }
    SplitJoin(parts, '.');
  }

  /** A parsed version is written back exactly as it was read: the text of a
      plain version is unique. */
  lemma ParseFormat(s: string)
    requires Parse(s).Some?
    ensures Format(Parse(s).value) == s
  {
    var parts := Split(s, '.');
    NumeralRoundTrip(parts[0]);
    NumeralRoundTrip(parts[1]);
    NumeralRoundTrip(parts[2]);
    assert parts == [parts[0], parts[1], parts[2]];
    JoinSplit(s, '.');
  }
}

=== FILE: text.dfy ===
/** Character and string helpers shared by the models: ASCII digits and
    decimal numerals, splitting on a separator, and ASCII case folding. */
module Text {

  predicate IsDigit(c: char) {
    '0' <= c <= '9'
  }

  predicate AllDigits(s: string) {
    forall i :: 0 <= i < |s| ==> IsDigit(s[i])
  }

  function DigitValue(c: char): (d: nat)
    requires IsDigit(c)
    ensures d < 10
  {
    (c as int) - ('0' as int)
  }

  function DigitChar(d: nat): (c: char)
    requires d < 10
    ensures IsDigit(c) && DigitValue(c) == d
  {
    (('0' as int) + d) as char
  }

  /** The value of a string of decimal digits, most significant digit first. */
  function DecimalValue(s: string): nat
    requires AllDigits(s)
    decreases |s|
  {
    if |s| == 0 then 0 else DecimalValue(s[..|s| - 1]) * 10 + DigitValue(s[|s| - 1])
  }

  /** A numeral without leading zeros: "0", or digits starting with 1-9. */
  predicate IsCanonicalNumeral(s: string) {
    |s| > 0 && AllDigits(s) && (s[0] == '0' ==> |s| == 1)
  }

  /** The decimal numeral of `n`, as Java's `Integer.toString` writes it for
      a non-negative value. */
  function NatToDecimal(n: nat): (s: string)
    ensures IsCanonicalNumeral(s)
    ensures DecimalValue(s) == n
    decreases n
  {
    if n < 10 then
      [DigitChar(n)]
    else
      var prefix := NatToDecimal(n / 10);
      var s := prefix + [DigitChar(n % 10)];
      assert s[..|s| - 1] == prefix;
      s
  }

  lemma {:induction false} LeadingDigitPositive(s: string)
    requires IsCanonicalNumeral(s) && s[0] != '0'
    ensures DecimalValue(s) > 0
    decreases |s|
  {
    if |s| > 1 {
      var prefix := s[..|s| - 1];
      assert prefix[0] == s[0];
      LeadingDigitPositive(prefix);
    }
  }

  /** Reading a canonical numeral and writing its value back gives the same
      numeral: canonical numerals and naturals are in one-to-one correspondence. */
  lemma {:induction false} NumeralRoundTrip(s: string)
    requires IsCanonicalNumeral(s)
    ensures NatToDecimal(DecimalValue(s)) == s
    decreases |s|
  {
    if |s| == 1 {
      assert DigitChar(DigitValue(s[0])) == s[0];
    } else {
      var prefix := s[..|s| - 1];
      assert prefix[0] == s[0];
      LeadingDigitPositive(prefix);
      NumeralRoundTrip(prefix);
      var n := DecimalValue(s);
      assert n / 10 == DecimalValue(prefix);
      assert n % 10 == DigitValue(s[|s| - 1]);
      assert DigitChar(DigitValue(s[|s| - 1])) == s[|s| - 1];
      assert s == prefix + [s[|s| - 1]];
    }
  }

  /** Index of the first occurrence of `c` in `s`, or `|s|` when there is none. */
  function IndexOf(s: string, c: char): (i: nat)
    ensures i <= |s|
    ensures i < |s| ==> s[i] == c
    ensures forall j :: 0 <= j < i ==> s[j] != c
  {
    if |s| == 0 then 0
    else if s[0] == c then 0
    else 1 + IndexOf(s[1..], c)
  }

  /** `s` cut at every occurrence of `sep`; always at least one part. */
  function Split(s: string, sep: char): (parts: seq<string>)
    ensures |parts| > 0
    ensures forall k :: 0 <= k < |parts| ==> sep !in parts[k]
    decreases |s|
  {
    var i := IndexOf(s, sep);
    if i == |s| then [s]
    else [s[..i]] + Split(s[i + 1..], sep)
  }

  /** Splitting at the first separator, at index `i`. */
  lemma SplitAtFirst(s: string, sep: char, i: nat)
    requires i < |s| && s[i] == sep
    requires forall j :: 0 <= j < i ==> s[j] != sep
    ensures Split(s, sep) == [s[..i]] + Split(s[i + 1..], sep)
  {
    assert IndexOf(s, sep) == i;
  }

  /** Text without the separator is a single part. */
  lemma SplitWithoutSeparator(s: string, sep: char)
    requires forall j :: 0 <= j < |s| ==> s[j] != sep
    ensures Split(s, sep) == [s]
  {
    assert IndexOf(s, sep) == |s|;
  }

  /** The parts written one after the other, separated by `sep`. */
  function Join(parts: seq<string>, sep: char): string
    requires |parts| > 0
  {
    if |parts| == 1 then parts[0] else parts[0] + [sep] + Join(parts[1..], sep)
  }

  /** Every character of `s` is a digit or `sep`. */
  predicate DigitsAndSeparators(s: string, sep: char) {
    forall i :: 0 <= i < |s| ==> IsDigit(s[i]) || s[i] == sep
  }

  /** Joining numerals gives digits and separators only. */
  lemma {:induction false} JoinOfDigits(parts: seq<string>, sep: char)
    requires |parts| > 0
    requires forall k :: 0 <= k < |parts| ==> AllDigits(parts[k])
    ensures DigitsAndSeparators(Join(parts, sep), sep)
    decreases |parts|
  {
    if |parts| > 1 {
      var rest := Join(parts[1..], sep);
      var s := Join(parts, sep);
      JoinOfDigits(parts[1..], sep);
      assert s == parts[0] + [sep] + rest;
      forall i | 0 <= i < |s| ensures IsDigit(s[i]) || s[i] == sep {
        if i < |parts[0]| {
          assert s[i] == parts[0][i] && AllDigits(parts[0]);
        } else if i == |parts[0]| {
          assert s[i] == sep;
        } else {
          assert s[i] == rest[i - |parts[0]| - 1];
        }
      }
    }
  }

  lemma {:induction false} JoinSplit(s: string, sep: char)
    ensures Join(Split(s, sep), sep) == s
    decreases |s|
  {
    var i := IndexOf(s, sep);
    if i < |s| {
      var rest := Split(s[i + 1..], sep);
      var parts := [s[..i]] + rest;
      assert Split(s, sep) == parts;
      assert parts[1..] == rest;
      assert Join(parts, sep) == s[..i] + [sep] + Join(rest, sep);
      JoinSplit(s[i + 1..], sep);
      assert s == s[..i] + [sep] + s[i + 1..];
    }
  }

  lemma {:induction false} SplitJoin(parts: seq<string>, sep: char)
    requires |parts| > 0
    requires forall k :: 0 <= k < |parts| ==> sep !in parts[k]
    ensures Split(Join(parts, sep), sep) == parts
    decreases |parts|
  {
    var s := Join(parts, sep);
    if |parts| == 1 {
      assert IndexOf(s, sep) == |s|;
    } else {
      var rest := Join(parts[1..], sep);
      assert s == parts[0] + [sep] + rest;
      assert s[|parts[0]|] == sep;
      assert forall j :: 0 <= j < |parts[0]| ==> s[j] == parts[0][j];
      assert IndexOf(s, sep) == |parts[0]|;
      assert s[..|parts[0]|] == parts[0];
      assert s[|parts[0]| + 1..] == rest;
      SplitJoin(parts[1..], sep);
    }
  }

  /** ASCII lower-casing of one character; every other character is kept. */
  function LowerAscii(c: char): char {
    if 'A' <= c <= 'Z' then (c as int + 32) as char else c
  }

  /** ASCII upper-casing of one character; every other character is kept. */
  function UpperAscii(c: char): char {
    if 'a' <= c <= 'z' then (c as int - 32) as char else c
  }

  /** `a` and `b` differ at most in the case of ASCII letters. */
  predicate EqualsIgnoreAsciiCase(a: string, b: string) {
    |a| == |b| && forall i :: 0 <= i < |a| ==> LowerAscii(a[i]) == LowerAscii(b[i])
  }
}
